=== FILE: README.md ===
# Text normalisation of `TextPreprocessor`, modelled in Dafny

This project models `TextPreprocessor` from `preprocess/normalize.py`. That class is the
text-normalisation pipeline of a speech-to-text repository. It has two parts:

- Construction builds a stopword list. It takes NLTK's English list, removes `"no"`
  and `"not"`, and appends seven domain tokens.
- `normalize_corpus` maps every document through a fixed sequence of stages:
  1. HTML stripping, accent folding, contraction expansion and lower-casing
     (each switchable).
  2. The line-break substitution at line 78 (always on).
  3. Lemmatisation (switchable).
  4. Padding and removal of special characters (switchable).
  5. Space collapsing at line 85 (always on).
  6. Stopword removal (switchable).

The model is functional. Strings are `seq<char>`, each stage is a pure function, and
the eight keyword flags form a `Config` datatype. The corpus loop is a method that
maps documents in order.

The library stages are fields of a `Toolkit` datatype of total functions: BeautifulSoup,
`unicodedata.normalize('NFKD', …)`, `contractions.fix`, the spaCy pipeline, the Toktok
tokenizer and `str.lower` on non-ASCII text. Everything the Python code does around those
calls is modelled exactly:

- `encode('ascii', 'ignore')` drops every non-ASCII character.
- A `-PRON-` lemma is replaced by the token's own text.
- Tokens are stripped, looked up and joined by `' '.join`.
- `list.remove` raises `ValueError` on a missing word. Here that is a `Failure` result.

The four regular expressions are modelled as written:

- `[^a-zA-z0-9\s]` (line 44): the range `A-z` runs from `A` to `z`. So `[ \ ] ^ _` and
  the backtick are kept too. `\s` is Python's Unicode whitespace class.
- `[\r|\n|\r\n]+` (line 78): this is a character class, not an alternation. Runs of CR,
  LF **and `|`** each become one space.
- `([{.(-)!}])` (line 82): `(-)` is the range from `(` to `)`. The padded characters are
  `{ . ( ) ! }`. The hyphen is not padded, so `"well-known"` ends up as `"wellknown"`
  (`HyphenJoinsWords`).
- `' +'` (line 85): only runs of the space character collapse. Tabs and other whitespace
  are left alone.

`(-)` and `A-z` look like slips for `-` and `A-Z`. The model follows the code as
written.

Modules and files:

| file | module | contents |
|---|---|---|
| `wrappers.dfy` | `Wrappers` | `Result` |
| `chars.dfy` | `Chars` | character classes |
| `seqs.dfy` | `Seqs` | filtering, `' '.join`, `str.split(' ')` |
| `pystrings.dfy` | `PyStrings` | `str.strip`, `str.lower` |
| `regex_stages.dfy` | `RegexStages` | lines 43-46, 78, 82-83 and 85 |
| `library.dfy` | `Library` | lines 31-51 |
| `stopwords.dfy` | `Stopwords` | lines 23-29 and 53-61 |
| `normalize.dfy` | `Normalize` | lines 14-29 and 63-89 |

## Model

| member | source | states |
|---|---|---|
| PyStrings.Strip | preprocess/normalize.py:55 | `token.strip()` returns a contiguous piece of the token, starting right after its leading whitespace. Neither end of the result is whitespace, and it keeps every non-whitespace character in order. |
| PyStrings.StripIdentity | preprocess/normalize.py:55 | Stripping changes a token exactly when one of its ends is whitespace. |
| PyStrings.StripIdempotent | preprocess/normalize.py:55 | Stripping twice is stripping once. |
| PyStrings.Lower | preprocess/normalize.py:76-77 | On ASCII text, `lower()` keeps the length and maps each capital A-Z to its letter 32 code points up. Every other character stays, and no capital remains. |
| PyStrings.LowerIdentity | preprocess/normalize.py:76-77 | ASCII text is its own lower case exactly when it holds no capital. |
| PyStrings.LowerIdempotent | preprocess/normalize.py:76-77 | Lowering ASCII text twice is lowering it once. |
| Seqs.JoinSplit | preprocess/normalize.py:60 | Splitting on single spaces and joining again with `' '.join` gives back the text. |
| Seqs.SplitJoin | preprocess/normalize.py:60 | A non-empty list of space-free words joined by `' '.join` splits back into exactly those words. |
| Seqs.Join | preprocess/normalize.py:60 | `' '.join`, also used at line 50: no part gives the empty string and one part gives that part. The rest is stated by `Seqs.JoinSplit` and `Seqs.SplitJoin`. |
| RegexStages.ReplaceRunsShape | preprocess/normalize.py:78 | Replacing each maximal run of class characters by a space never lengthens the text. Every output character is the space or an input character outside the class. No two class characters touch afterwards. |
| RegexStages.ReplaceRunsContent | preprocess/normalize.py:85 | The run replacement keeps, in order, every character that is outside the class and not a space. |
| RegexStages.ReplaceRunsIdentity | preprocess/normalize.py:78 | The replacement leaves a text unchanged exactly when the space is its only class character and no two class characters touch. |
| RegexStages.ReplaceRunsFixes | preprocess/normalize.py:85 | A text whose only class character is an isolated space is left as it is. |
| RegexStages.ReplaceRunsAppend | preprocess/normalize.py:78 | When the first part does not end inside a run, the replacement of a concatenation is the concatenation of the replacements. |
| RegexStages.ReplaceRunsCollapse | preprocess/normalize.py:85 | A whole run, however long, becomes exactly one space. |
| RegexStages.ReplaceRunsSeparates | preprocess/normalize.py:78 | A single space between two pieces that touch it with characters outside the class stays a single space. Each piece is replaced on its own and keeps its character at the seam. |
| RegexStages.CollapseLineBreaks | preprocess/normalize.py:78 | No CR, LF or vertical bar is left, and no other character is introduced except the space. Every other character except the space survives, in order. The document is unchanged, length included, exactly when it held none of the three. |
| RegexStages.CollapseSpaces | preprocess/normalize.py:85 | No two spaces are adjacent afterwards. The non-space characters stay the same and in the same order. The text changes exactly when it had two adjacent spaces. |
| RegexStages.CollapseSpacesIdempotent | preprocess/normalize.py:85 | Collapsing twice is collapsing once. |
| RegexStages.PadAppend | preprocess/normalize.py:82-83 | Padding a concatenation pads each part. |
| RegexStages.PadLength | preprocess/normalize.py:82-83 | Padding adds exactly two characters per padded character. |
| RegexStages.PadOnlyAddsSpaces | preprocess/normalize.py:82-83 | Padding adds only spaces. The non-space characters stay the same and in order. |
| RegexStages.PadSurrounds | preprocess/normalize.py:82-83 | After padding, each of `{ . ( ) ! }` has a space on both sides. |
| RegexStages.PadIdentity | preprocess/normalize.py:82-83 | Padding changes a text exactly when it holds one of `{ . ( ) ! }`. |
| RegexStages.PadSpecials | preprocess/normalize.py:82-83 | The substitution `" \1 "` has all of the padding properties above: length, content, surrounding spaces, and the unchanged-iff condition. |
| RegexStages.RemoveSpecialCharacters | preprocess/normalize.py:43-46 | Only kept characters remain: letters in `a-z` or `A-z`, digits unless `remove_digits`, and whitespace. They are an in-order subsequence of the input, and each kept character occurs exactly as often as in the input. With `remove_digits` no digit is left. The text is unchanged exactly when every character is kept. |
| RegexStages.RemoveSpecialCharactersIdempotent | preprocess/normalize.py:43-46 | Removing twice is removing once, in both modes. |
| RegexStages.RemoveSpecialCharactersAppend | preprocess/normalize.py:45 | `re.sub` with a one-character class acts on each part of a concatenation separately. |
| RegexStages.AsciiRangeKeepsPunctuation | preprocess/normalize.py:44 | The range `A-z` as written keeps `[ \ ] ^ _` and the backtick, in both modes. |
| RegexStages.PaddedIsRemoved | preprocess/normalize.py:82-84 | Every padded character is one the removal deletes. |
| RegexStages.PaddedCharacterSeparates | preprocess/normalize.py:82-84 | Padding then removal turns a padded character into two spaces, so the text on its two sides stays apart. |
| RegexStages.UnpaddedCharacterJoins | preprocess/normalize.py:82-84 | A removed character that is not padded vanishes, so the text on its two sides runs together. |
| RegexStages.HyphenJoinsWords | preprocess/normalize.py:82-84 | The hyphen is not padded, so words joined by it fuse into one. |
| Library.RemoveAccentedChars | preprocess/normalize.py:36-38 | The result is ASCII. It is an in-order subsequence of the NFKD form holding each of its ASCII characters as often as they occur. It equals the NFKD form exactly when that form is ASCII. |
| Library.SurfaceForms | preprocess/normalize.py:50 | There is one word per token, in order. A word is the token's lemma, or its own text when the lemma is `-PRON-`. So `-PRON-` appears only for a token whose text is `-PRON-`. |
| Library.LemmatizeTextWords | preprocess/normalize.py:48-51 | The lemmatised text splits back into one word per token, given at least one token and no space inside a word. |
| Library.LemmatizeText | preprocess/normalize.py:48-51 | `lemmatize_text`: the words of `Library.SurfaceForms` joined with `' '.join`, which `Library.LemmatizeTextWords` splits back. |
| Seqs.IndexOf | preprocess/normalize.py:27-28 | The index `list.remove` deletes: the first occurrence of the word. |
| Stopwords.RemoveFirst | preprocess/normalize.py:27-28 | `list.remove` deletes one occurrence, the first. The elements before and after it keep their order. |
| Stopwords.RemoveFirstKeepsOthers | preprocess/normalize.py:27-28 | Removing one word leaves every other word's membership as it was. |
| Stopwords.BuildStopwordList | preprocess/normalize.py:23-29 | Construction succeeds exactly when the base list has "no" and "not". Otherwise it fails with `ValueError`, for "no" first. On success the list is, as a multiset, the base list with one "no" and one "not" fewer, followed by the seven custom tokens. Every other base word is kept. |
| Stopwords.NegationsNotCustom | preprocess/normalize.py:26 | Neither negation is a custom token. |
| Stopwords.NegationsExcluded | preprocess/normalize.py:27-28 | After construction, "no" (and likewise "not") is absent exactly when the base list held it once. |
| Stopwords.CustomStopwordsIncluded | preprocess/normalize.py:26-29 | Every custom token is on the built list. |
| Stopwords.StripAll | preprocess/normalize.py:55 | One result per token. Each result has no whitespace at either end, is a contiguous piece of its token starting after the token's leading whitespace, and keeps all of the token's non-whitespace characters in order. |
| Stopwords.LookupKey | preprocess/normalize.py:57-59 | The key searched for in the list: the token itself at line 57, its lower case at line 59. `Normalize.NegationLookupKeys` says which ASCII tokens key to "no" and "not". |
| Stopwords.SurvivingTokens | preprocess/normalize.py:54-59 | The surviving tokens are stripped tokens whose lookup key is not a stopword. They appear in their original order, and each non-stopword token appears as often as it was produced. No token whose key is a stopword survives. |
| Stopwords.RemoveStopwords | preprocess/normalize.py:53-61 | No survivors give the empty string. When there are survivors and none contains a space, the output splits back into exactly the survivors. |
| Stopwords.OnlyStopwordsLeaveNothing | preprocess/normalize.py:53-61 | A text with no token, or only stopwords, gives the empty string. |
| Normalize.NewTextPreprocessor | preprocess/normalize.py:15-29 | Construction raises exactly when "no" or "not" is missing. A built preprocessor's list holds every custom token, and neither negation when each occurred once. |
| Normalize.Prepare | preprocess/normalize.py:70-77 | The optional library stages and lower-casing, in source order. `Normalize.PrepareSeparates` and `Normalize.CleanDocumentLowerAscii` state what they do when the library stages are off. |
| Normalize.PrepareSeparates | preprocess/normalize.py:70-77 | With the library stages off, the two sides of a space are prepared apart and keep their length; lower-casing maps each seam character through the ASCII lower case. |
| Normalize.SpecialCharStage | preprocess/normalize.py:81-84 | When the stage runs, only kept characters remain, and every kept character other than the space survives, in order. When it does not run, the text is unchanged. Either way no character appears that was not there, except the space. |
| Normalize.SpecialCharStageSeparates | preprocess/normalize.py:81-84 | A space between two pieces whose seam characters are kept, and are not spaces or line breaks, stays: the pieces are padded and filtered apart, and each keeps its seam character. |
| Normalize.CleanDocument | preprocess/normalize.py:70-85 | Before stopword removal, for every configuration, no two spaces are adjacent. Without lemmatisation no CR, LF or vertical bar remains. With special-character removal only kept characters remain, and with `remove_digits` as well, no digit. |
| Normalize.CleanDocumentKeeps | preprocess/normalize.py:70-85 | Without lemmatisation, every character that is not a space or line break, and is kept by the special-character class when that stage runs, survives the regular-expression stages in order. With the other library stages off too, these are exactly the surviving characters of the (lower-cased) document. Spaces are stated by `Normalize.CleanDocumentSeparates`, and at fixed points by `Normalize.CleanDocumentFixes`. |
| Normalize.CleanDocumentSeparates | preprocess/normalize.py:70-85 | With the library stages off (ASCII input when lower-casing), cleaning `a + " " + b` gives the cleaning of `a`, one space, and the cleaning of `b`, whenever the characters touching the space survive every stage. So a space between two words is never lost. |
| Normalize.MapDocuments | preprocess/normalize.py:68-89 | The loop appends one result per document, in order. |
| Normalize.NormalizeDocument | preprocess/normalize.py:70-87 | One pass of the loop body: cleaning, then stopword removal when asked. `Normalize.NormalizeWithoutStopwordRemoval` and `Normalize.NoStopwordSurvives` state its result. |
| Normalize.NormalizeCorpus | preprocess/normalize.py:63-89 | `normalize_corpus` returns one document per input document, in input order. Each output is the normalisation of its own input alone, for every flag combination. |
| Normalize.NormalizeWithoutStopwordRemoval | preprocess/normalize.py:86-88 | Without stopword removal the output has no two adjacent spaces, and no digit when digits are removed. |
| Normalize.NoStopwordSurvives | preprocess/normalize.py:86-87 | With stopword removal on, no word of the output is a stopword under the lookup used, given at least one survivor and no space inside a survivor. |
| Normalize.EmptyDocument | preprocess/normalize.py:68-89 | The empty document normalises to the empty string under every configuration, provided the libraries map empty text to empty text. |
| Normalize.NegationsSurvive | preprocess/normalize.py:57-59 | When each negation occurred once in the base list, a token whose lookup key is "no" or "not" always survives. |
| Normalize.NegationLookupKeys | preprocess/normalize.py:59 | For an ASCII token, the case-insensitive lookup key is "not" exactly when the token is three letters that lower to n, o, t, and "no" exactly when it is two letters that lower to n, o. |
| Normalize.CleanDocumentLowerAscii | preprocess/normalize.py:70-85 | With HTML stripping, contraction expansion and lemmatisation off, lower-casing on, and either accent folding on or ASCII input, the cleaned text is lower-case ASCII. |
| Normalize.DefaultCleaning | preprocess/normalize.py:63-85 | Under the default arguments, a cleaned document holds only kept characters, no digit, and no two adjacent spaces. |
| Normalize.CleanDocumentFixes | preprocess/normalize.py:70-85 | When only the regular-expression stages and lower-casing run, and the input is ASCII when lower-casing, cleaning leaves a text unchanged exactly when it has single spaces only, no CR, LF or vertical bar, only kept characters when special characters are removed, and only lower-case ASCII when lower-casing. So the spaces between words survive. |
| Normalize.CleanDocumentIdempotent | preprocess/normalize.py:70-85 | When only the regular-expression stages and lower-casing run, and the input is ASCII when lower-casing, cleaning twice is cleaning once. |

## Left out

- The internals of BeautifulSoup (line 32), NFKD decomposition (line 37), `contractions.fix` (line 41), the spaCy pipeline (line 49) and the Toktok tokenizer (line 54) are not modelled. Each is a `Toolkit` field; the tokenizer is assumed only to return a sequence of strings.
- `nltk.download` at lines 11-12 is not modelled, nor the model loading and download fallback at lines 16-20. They are network and filesystem calls.
- NLTK's English stopword list (line 23) is a parameter, because it is a data file read from disk.
- Text is a sequence of Unicode scalar values, so a Python `str` holding a lone surrogate is outside the model; `encode('ascii', 'ignore')` at line 37 would drop one like any other non-ASCII code point.
- PyStrings.Lower: states the exact result only on ASCII text. On text with a non-ASCII character it is the `nonAsciiLower` parameter, because Unicode case mapping is context dependent (final sigma) and needs the Unicode tables.
- Normalize.NegationLookupKeys: states the key only for ASCII tokens. A non-ASCII token is lowered by the `nonAsciiLower` parameter, whose result is unknown.
- Normalize.CleanDocumentLowerAscii: asks for HTML stripping, contraction expansion and lemmatisation to be off. They are parameters with no contract, so their output may hold any character.
- Normalize.CleanDocumentSeparates: the same conditions as CleanDocumentIdempotent, for the same reason: a library stage could join or split words freely.
- Normalize.CleanDocumentFixes: the same conditions as CleanDocumentIdempotent, for the same reason.
- Normalize.CleanDocumentIdempotent: asks for the library stages to be off, and for ASCII input when lower-casing is on. The library stages are parameters with no contract, so nothing is known about applying them twice.
- Stopwords.RemoveStopwords: states the split-back property only when no surviving token holds a space. The tokenizer is abstract, and a token with an inner space would be split apart.
- Normalize.NoStopwordSurvives: the same condition, because its statement reads the words back by splitting the output on spaces.
- Library.LemmatizeTextWords: the same condition, for the words of the lemmatised text.
- The unused `numpy` import is not modelled, and neither are the instance fields `nlp` and `tokenizer` as objects; they are the `analyze` and `tokenize` fields.
- main.py, preprocess.py, models/bert.py and classifier_model.py are not part of this model. They are cloud I/O handlers, machine-learning training wrappers and CSV loading scripts.

=== FILE: chars.dfy ===
/** Character classes used by the regular expressions and string methods of the
    normaliser. Characters are Unicode scalar values, as in a Python `str` without lone
    surrogates. */
module Chars {

  /** Python's `str.isspace`, which is also the class `\s` of a `str` pattern in the
      `re` module and the set `str.strip()` removes: TAB through CR, the separators
      FS through US, SPACE, NEL, NO-BREAK SPACE, the Unicode space separators
      (OGHAM SPACE MARK, U+2000-U+200A, U+202F, U+205F, U+3000) and the LINE and
      PARAGRAPH SEPARATORS U+2028 and U+2029. */
  predicate IsWhitespace(c: char) {
    var n := c as int;
    || (0x09 <= n <= 0x0D)
    || (0x1C <= n <= 0x20)
    || n == 0x85
    || n == 0xA0
    || n == 0x1680
    || (0x2000 <= n <= 0x200A)
    || n == 0x2028
    || n == 0x2029
    || n == 0x202F
    || n == 0x205F
    || n == 0x3000
  }

  /** The literal space character, the only one the pattern `' +'` matches. */
  predicate IsBlank(c: char) {
    c == ' '
  }

  predicate IsDigit(c: char) {
    '0' <= c <= '9'
  }

  predicate IsAscii(c: char) {
    c as int < 0x80
  }

  predicate IsAsciiUpper(c: char) {
    'A' <= c <= 'Z'
  }

  predicate AllAscii(s: string) {
    forall i :: 0 <= i < |s| ==> IsAscii(s[i])
  }

  /** No two neighbouring characters both belong to the class `p`. */
  predicate NoAdjacent(p: char -> bool, s: string) {
    forall i :: 0 < i < |s| ==> !(p(s[i - 1]) && p(s[i]))
  }

  /** The lower-case partner of an ASCII capital; every other character is its own. */
  function ToAsciiLower(c: char): (d: char)
    ensures IsAsciiUpper(c) ==> d as int == c as int + 32
    ensures !IsAsciiUpper(c) ==> d == c
    ensures !IsAsciiUpper(d)
  {
    if IsAsciiUpper(c) then (c as int + 32) as char else c
  }
}

=== FILE: library.dfy ===
/** The stages that call into libraries: BeautifulSoup, `unicodedata`,
    `contractions`, spaCy and NLTK's Toktok tokenizer. Their internals are not
    modelled; each is a field of a `Toolkit`, and only the Python code wrapped
    around them is (preprocess/normalize.py lines 31-51). */
module Library {
  import opened Chars
  import opened Seqs

  /** One token of a spaCy analysis: its surface text and its `lemma_` (its base form). */
  datatype Token = Token(text: string, baseForm: string)

  /** The lemma spaCy 2 gives every pronoun. */
  const PronounPlaceholder: string := "-PRON-"

  /** The library functions the normaliser is built on.
      - `htmlText`: `BeautifulSoup(text, "html.parser").get_text()`
      - `nfkd`: `unicodedata.normalize('NFKD', text)`
      - `fixContractions`: `contractions.fix(text)`
      - `nonAsciiLower`: `str.lower()` on text that holds a non-ASCII character
      - `analyze`: the `en_core_web_sm` pipeline, as a sequence of tokens
      - `tokenize`: `ToktokTokenizer().tokenize(text)` */
  datatype Toolkit = Toolkit(
    htmlText: string -> string,
    nfkd: string -> string,
    fixContractions: string -> string,
    nonAsciiLower: string -> string,
    analyze: string -> seq<Token>,
    tokenize: string -> seq<string>)

  /** `strip_html_tags`: the visible text of the parsed markup. */
  function StripHtmlTags(tk: Toolkit, text: string): string {
    tk.htmlText(text)
  }

  /** `remove_accented_chars`: the NFKD form, encoded to ASCII with errors ignored
      and decoded again. Encoding drops every character outside ASCII, so the
      result is ASCII, keeps the ASCII characters of the NFKD form in order and as
      often as they occur, and is the NFKD form itself when that is ASCII. */
  function RemoveAccentedChars(tk: Toolkit, text: string): (r: string)
    ensures AllAscii(r)
    ensures IsSubsequence(r, tk.nfkd(text))
    ensures forall c {:trigger multiset(r)[c]} :: IsAscii(c) ==> multiset(r)[c] == multiset(tk.nfkd(text))[c]
    ensures r == tk.nfkd(text) <==> AllAscii(tk.nfkd(text))
  {
    var decomposed := tk.nfkd(text);
    FilterSubsequence(IsAscii, decomposed);
    FilterCounts(IsAscii, decomposed);
    FilterIdentity(IsAscii, decomposed);
    Filter(IsAscii, decomposed)
  }

  /** `expand_contractions`. */
  function ExpandContractions(tk: Toolkit, text: string): string {
    tk.fixContractions(text)
  }

  /** The word `lemmatize_text` emits for one token: its lemma, unless that is
      the pronoun placeholder, in which case its own text. */
  function SurfaceForm(t: Token): string {
    if t.baseForm != PronounPlaceholder then t.baseForm else t.text
  }

  /** One word per token, in token order: the lemma, except that a pronoun keeps
      its surface text. So the placeholder appears only for a token whose own
      text is the placeholder. */
  function SurfaceForms(tokens: seq<Token>): (words: seq<string>)
    ensures |words| == |tokens|
    ensures forall i :: 0 <= i < |tokens| && tokens[i].baseForm != PronounPlaceholder ==> words[i] == tokens[i].baseForm
    ensures forall i :: 0 <= i < |tokens| && tokens[i].baseForm == PronounPlaceholder ==> words[i] == tokens[i].text
    ensures forall i :: 0 <= i < |words| && words[i] == PronounPlaceholder ==> tokens[i].text == PronounPlaceholder
    decreases |tokens|
  {
    if |tokens| == 0 then [] else [SurfaceForm(tokens[0])] + SurfaceForms(tokens[1..])
  }

  /** `lemmatize_text`: the words of SurfaceForms joined by single spaces. */
  function LemmatizeText(tk: Toolkit, text: string): string {
    Join(SurfaceForms(tk.analyze(text)))
  }

  /** The lemmatised text splits back into one word per token, provided there is a
      token and no word holds a space. */
  lemma {:induction false} LemmatizeTextWords(tk: Toolkit, text: string)
    requires |tk.analyze(text)| >= 1
    requires forall i :: 0 <= i < |tk.analyze(text)| ==> ' ' !in SurfaceForm(tk.analyze(text)[i])
    ensures Split(LemmatizeText(tk, text)) == SurfaceForms(tk.analyze(text))
  {
    SplitJoin(SurfaceForms(tk.analyze(text)));
  }
}

=== FILE: normalize.dfy ===
/** `TextPreprocessor` and `normalize_corpus` (preprocess/normalize.py lines 14-29
    and 63-89): a fixed sequence of stages applied to each document on its own. */
module Normalize {
  import opened Wrappers
  import opened Chars
  import opened Seqs
  import opened PyStrings
  import opened RegexStages
  import opened Library
  import opened Stopwords

  /** The keyword arguments of `normalize_corpus`, one flag per switchable stage. */
  datatype Config = Config(
    htmlStripping: bool,
    contractionExpansion: bool,
    accentedCharRemoval: bool,
    textLowerCase: bool,
    textLemmatization: bool,
    specialCharRemoval: bool,
    stopwordRemoval: bool,
    removeDigits: bool)

  /** Every keyword argument at its default, `True`. */
  const DefaultConfig: Config := Config(true, true, true, true, true, true, true, true)

  /** A constructed preprocessor: its library functions and its stopword list. */
  datatype TextPreprocessor = TextPreprocessor(toolkit: Toolkit, stopwords: seq<string>)

  /** `TextPreprocessor()`, given the library functions and NLTK's English list.
      Construction raises exactly when the list lacks "no" or "not". */
  function NewTextPreprocessor(tk: Toolkit, base: seq<string>): (r: Result<TextPreprocessor, Error>)
    ensures r.Success? <==> "no" in base && "not" in base
    ensures r.Success? ==> forall w :: w in CustomStopwords ==> w in r.value.stopwords
    ensures r.Success? && multiset(base)["no"] == 1 && multiset(base)["not"] == 1 ==>
              "no" !in r.value.stopwords && "not" !in r.value.stopwords
  {
    match BuildStopwordList(base)
    case Failure(e) => Failure(e)
    case Success(stopwords) =>
      CustomStopwordsIncluded(base);
      NegationsExcluded(base);
      Success(TextPreprocessor(tk, stopwords))
  }

  /** A character property that holds of the space and of every character of `s`
      holds of every character of `r`. */
  lemma {:induction false} PropertyCarriesOver(prop: char -> bool, r: string, s: string)
    requires prop(' ')
    requires forall i :: 0 <= i < |s| ==> prop(s[i])
    requires SpacesOrFrom(r, s)
    ensures forall i :: 0 <= i < |r| ==> prop(r[i])
  {
    forall i | 0 <= i < |r| ensures prop(r[i]) {
      if r[i] != ' ' {
        var j :| 0 <= j < |s| && s[j] == r[i];
      }
    }
  }

  /** Lines 70-77, the stages before line 78. */
  function Prepare(tk: Toolkit, cfg: Config, doc: string): string {
    var html := if cfg.htmlStripping then StripHtmlTags(tk, doc) else doc;
    var accents := if cfg.accentedCharRemoval then RemoveAccentedChars(tk, html) else html;
    var expanded := if cfg.contractionExpansion then ExpandContractions(tk, accents) else accents;
    if cfg.textLowerCase then Lower(tk.nonAsciiLower, expanded) else expanded
  }

  /** Lines 79-80. */
  function LemmatizeStage(tk: Toolkit, cfg: Config, s: string): string {
    if cfg.textLemmatization then LemmatizeText(tk, s) else s
  }

  /** Lines 81-84: padding, then removal of the characters the pattern rejects.
      When the stage runs, every remaining character is one the removal keeps, and
      every kept character of the input other than the space comes through, in
      order; when it does not run, the text is untouched. Either way it adds no
      character but the space. */
  function SpecialCharStage(cfg: Config, s: string): (r: string)
    ensures cfg.specialCharRemoval ==> forall i :: 0 <= i < |r| ==> IsKept(r[i], cfg.removeDigits)
    ensures cfg.specialCharRemoval ==>
              Filter(KeptNonBlank(cfg.removeDigits), r) == Filter(KeptNonBlank(cfg.removeDigits), s)
    ensures !cfg.specialCharRemoval ==> r == s
    ensures SpacesOrFrom(r, s)
  {
    if cfg.specialCharRemoval then
      var padded := PadSpecials(s);
      var r := RemoveSpecialCharacters(padded, cfg.removeDigits);
      assert SpacesOrFrom(r, s) by {
        forall i | 0 <= i < |r| ensures r[i] == ' ' || r[i] in s {
          var j :| 0 <= j < |padded| && padded[j] == r[i];
        }
      }
      var kept := KeptNonBlank(cfg.removeDigits);
      assert Filter(kept, r) == Filter(kept, s) by {
        KeptNonBlankNarrows(cfg.removeDigits);
        FilterNarrow(kept, Keeps(cfg.removeDigits), padded);
        FilterTransfer(kept, Untouched(IsBlank), padded, s);
      }
      r
    else
      s
  }

  /** Lines 70-85, the stages before stopword removal. Line 78 and line 85 always
      run, so the result never has two spaces in a row, and without lemmatisation
      it holds no CR, LF or `|`. With special-character removal on, every character
      is one the removal keeps, and with digit removal no digit is left. */
  function CleanDocument(tk: Toolkit, cfg: Config, doc: string): (r: string)
    ensures NoAdjacent(IsBlank, r)
    ensures !cfg.textLemmatization ==> forall i :: 0 <= i < |r| ==> !InLineBreakClass(r[i])
    ensures cfg.specialCharRemoval ==> forall i :: 0 <= i < |r| ==> IsKept(r[i], cfg.removeDigits)
    ensures cfg.specialCharRemoval && cfg.removeDigits ==> forall i :: 0 <= i < |r| ==> !IsDigit(r[i])
  {
    var oneLine := CollapseLineBreaks(Prepare(tk, cfg, doc));
    var stripped := SpecialCharStage(cfg, LemmatizeStage(tk, cfg, oneLine));
    var r := CollapseSpaces(stripped);
    assert SpacesOrFrom(r, stripped);
    assert !cfg.textLemmatization ==> forall i :: 0 <= i < |r| ==> !InLineBreakClass(r[i]) by {
      if !cfg.textLemmatization {
        PropertyCarriesOver(c => !InLineBreakClass(c), stripped, oneLine);
        PropertyCarriesOver(c => !InLineBreakClass(c), r, stripped);
      }
    }
    assert cfg.specialCharRemoval ==> forall i :: 0 <= i < |r| ==> IsKept(r[i], cfg.removeDigits) by {
      if cfg.specialCharRemoval {
        PropertyCarriesOver(c => IsKept(c, cfg.removeDigits), r, stripped);
      }
    }
    r
  }

  /** The characters line 78, lines 81-84 and line 85 never touch: not a space,
      not CR, LF or `|`, and one the removal keeps when that stage runs. */
  function Survives(cfg: Config): char -> bool {
    c => c != ' ' && !InLineBreakClass(c) && (cfg.specialCharRemoval ==> IsKept(c, cfg.removeDigits))
  }

  lemma {:induction false} SurvivesNarrows(cfg: Config)
    ensures forall c :: Survives(cfg)(c) ==> Untouched(InLineBreakClass)(c)
    ensures forall c :: Survives(cfg)(c) ==> Untouched(IsBlank)(c)
    ensures forall c :: Survives(cfg)(c) && cfg.specialCharRemoval ==> KeptNonBlank(cfg.removeDigits)(c)
  {
    forall c | Survives(cfg)(c) ensures Untouched(IsBlank)(c) {
      assert !IsBlank(c);
      assert Untouched(IsBlank)(c) == (!IsBlank(c) && c != ' ');
    }
  }

  /** A property no stage of lines 78-85 touches: its characters pass each stage
      in order. */
  lemma {:induction false} StagesKeep(cfg: Config, p: char -> bool, s: string)
    requires forall c :: p(c) ==> Untouched(InLineBreakClass)(c)
    requires forall c :: p(c) ==> Untouched(IsBlank)(c)
    requires forall c :: p(c) && cfg.specialCharRemoval ==> KeptNonBlank(cfg.removeDigits)(c)
    ensures Filter(p, CollapseLineBreaks(s)) == Filter(p, s)
    ensures Filter(p, SpecialCharStage(cfg, s)) == Filter(p, s)
    ensures Filter(p, CollapseSpaces(s)) == Filter(p, s)
  {
    FilterTransfer(p, Untouched(InLineBreakClass), CollapseLineBreaks(s), s);
    if cfg.specialCharRemoval {
      FilterTransfer(p, KeptNonBlank(cfg.removeDigits), SpecialCharStage(cfg, s), s);
    }
    FilterTransfer(p, Untouched(IsBlank), CollapseSpaces(s), s);
  }

  /** Without lemmatisation, every character that the stages of lines 78-85 never
      touch comes through cleaning, in order and as often as it occurs. With the
      other library stages off as well, that is every such character of the
      document itself, or of its lower case when lower-casing is on. */
  lemma {:induction false} CleanDocumentKeeps(tk: Toolkit, cfg: Config, doc: string)
    requires !cfg.textLemmatization
    ensures Filter(Survives(cfg), CleanDocument(tk, cfg, doc)) == Filter(Survives(cfg), Prepare(tk, cfg, doc))
    ensures !cfg.htmlStripping && !cfg.accentedCharRemoval && !cfg.contractionExpansion ==>
              Filter(Survives(cfg), CleanDocument(tk, cfg, doc))
              == Filter(Survives(cfg), if cfg.textLowerCase then Lower(tk.nonAsciiLower, doc) else doc)
  {
    var survives := Survives(cfg);
    var prepared := Prepare(tk, cfg, doc);
    var oneLine := CollapseLineBreaks(prepared);
    var stripped := SpecialCharStage(cfg, oneLine);
    assert CleanDocument(tk, cfg, doc) == CollapseSpaces(stripped);
    SurvivesNarrows(cfg);
    StagesKeep(cfg, survives, prepared);
    StagesKeep(cfg, survives, oneLine);
    StagesKeep(cfg, survives, stripped);
  }

  /** Lower-casing an ASCII capital gives a letter, so it keeps a surviving
      character surviving. */
  lemma {:induction false} SurvivesLowered(cfg: Config, c: char)
    requires Survives(cfg)(c)
    ensures Survives(cfg)(ToAsciiLower(c))
  {
    var d := ToAsciiLower(c);
    assert !InLineBreakClass(d) && d != ' ';
    assert cfg.specialCharRemoval ==> IsKept(d, cfg.removeDigits);
  }

  /** With the library stages off, lines 70-77 treat the two sides of a space
      apart, character by character. */
  lemma {:induction false} PrepareSeparates(tk: Toolkit, cfg: Config, a: string, b: string)
    requires LibraryStagesOff(cfg)
    requires cfg.textLowerCase ==> AllAscii(a) && AllAscii(b)
    requires |a| > 0 && |b| > 0
    ensures Prepare(tk, cfg, a + " " + b) == Prepare(tk, cfg, a) + " " + Prepare(tk, cfg, b)
    ensures |Prepare(tk, cfg, a)| == |a| && |Prepare(tk, cfg, b)| == |b|
    ensures Prepare(tk, cfg, a)[|a| - 1] == if cfg.textLowerCase then ToAsciiLower(a[|a| - 1]) else a[|a| - 1]
    ensures Prepare(tk, cfg, b)[0] == if cfg.textLowerCase then ToAsciiLower(b[0]) else b[0]
  {
    if cfg.textLowerCase {
      var s := a + " " + b;
      assert AllAscii(s) by {
        forall i | 0 <= i < |s| ensures IsAscii(s[i]) {
          if i < |a| {
            assert s[i] == a[i];
          } else if i > |a| {
            assert s[i] == b[i - |a| - 1];
          }
        }
      }
      var la, lb := AsciiLower(a), AsciiLower(b);
      assert Prepare(tk, cfg, s) == AsciiLower(s);
      assert Prepare(tk, cfg, a) == la && Prepare(tk, cfg, b) == lb;
      var ls := AsciiLower(s);
      var rhs := la + " " + lb;
      assert |ls| == |rhs|;
      forall i | 0 <= i < |ls| ensures ls[i] == rhs[i] {
        if i < |a| {
          assert s[i] == a[i];
        } else if i > |a| {
          assert s[i] == b[i - |a| - 1];
        } else {
          assert s[i] == ' ';
        }
      }
    }
  }

  /** Lines 81-84 keep a space between two pieces whose touching characters
      survive them, and keep those characters at the seam. */
  lemma {:induction false} SpecialCharStageSeparates(cfg: Config, a: string, b: string)
    requires |a| > 0 && Survives(cfg)(a[|a| - 1])
    requires |b| > 0 && Survives(cfg)(b[0])
    ensures SpecialCharStage(cfg, a + " " + b) == SpecialCharStage(cfg, a) + " " + SpecialCharStage(cfg, b)
    ensures |SpecialCharStage(cfg, a)| > 0
    ensures SpecialCharStage(cfg, a)[|SpecialCharStage(cfg, a)| - 1] == a[|a| - 1]
    ensures |SpecialCharStage(cfg, b)| > 0 && SpecialCharStage(cfg, b)[0] == b[0]
  {
    if cfg.specialCharRemoval {
      var d := cfg.removeDigits;
      assert IsKept(a[|a| - 1], d) && IsKept(b[0], d);
      PadThenRemove(a + " " + b, d);
      PadThenRemove(a, d);
      PadThenRemove(b, d);
      PadThenRemoveSeparates(a, b, d);
    }
  }

  /** Lines 78-85 applied to the prepared text. */
  function CleanPrepared(tk: Toolkit, cfg: Config, s: string): string {
    CollapseSpaces(SpecialCharStage(cfg, LemmatizeStage(tk, cfg, CollapseLineBreaks(s))))
  }

  lemma {:induction false} CleanPreparedSeparates(tk: Toolkit, cfg: Config, a: string, b: string)
    requires !cfg.textLemmatization
    requires |a| > 0 && Survives(cfg)(a[|a| - 1])
    requires |b| > 0 && Survives(cfg)(b[0])
    ensures CleanPrepared(tk, cfg, a + " " + b) == CleanPrepared(tk, cfg, a) + " " + CleanPrepared(tk, cfg, b)
  {
    var sv := Survives(cfg);
    assert !InLineBreakClass(a[|a| - 1]) && !InLineBreakClass(b[0]);
    ReplaceRunsSeparates(InLineBreakClass, a, b);
    var oa, ob := CollapseLineBreaks(a), CollapseLineBreaks(b);
    assert CollapseLineBreaks(a + " " + b) == oa + " " + ob;
    SpecialCharStageSeparates(cfg, oa, ob);
    var sa, sb := SpecialCharStage(cfg, oa), SpecialCharStage(cfg, ob);
    assert sv(sa[|sa| - 1]) && sv(sb[0]);
    assert !IsBlank(sa[|sa| - 1]) && !IsBlank(sb[0]);
    ReplaceRunsSeparates(IsBlank, sa, sb);
  }

  /** Lines 70-85, with the library stages off, keep a single space between two
      pieces whose touching characters survive every stage: each piece is cleaned
      on its own, and the space between them stays. So cleaning never joins two
      words that a space separated. */
  lemma {:induction false} CleanDocumentSeparates(tk: Toolkit, cfg: Config, a: string, b: string)
    requires LibraryStagesOff(cfg)
    requires cfg.textLowerCase ==> AllAscii(a) && AllAscii(b)
    requires |a| > 0 && Survives(cfg)(a[|a| - 1])
    requires |b| > 0 && Survives(cfg)(b[0])
    ensures CleanDocument(tk, cfg, a + " " + b) == CleanDocument(tk, cfg, a) + " " + CleanDocument(tk, cfg, b)
  {
    PrepareSeparates(tk, cfg, a, b);
    var pa, pb := Prepare(tk, cfg, a), Prepare(tk, cfg, b);
    assert Survives(cfg)(pa[|pa| - 1]) && Survives(cfg)(pb[0]) by {
      if cfg.textLowerCase {
        SurvivesLowered(cfg, a[|a| - 1]);
        SurvivesLowered(cfg, b[0]);
      }
    }
    CleanPreparedSeparates(tk, cfg, pa, pb);
    assert CleanDocument(tk, cfg, a + " " + b) == CleanPrepared(tk, cfg, pa + " " + pb);
    assert CleanDocument(tk, cfg, a) == CleanPrepared(tk, cfg, pa);
    assert CleanDocument(tk, cfg, b) == CleanPrepared(tk, cfg, pb);
  }

  /** One pass of the loop body, lines 70-87. */
  function NormalizeDocument(p: TextPreprocessor, cfg: Config, doc: string): string {
    var cleaned := CleanDocument(p.toolkit, cfg, doc);
    if cfg.stopwordRemoval
    then RemoveStopwords(p.toolkit, p.stopwords, cleaned, cfg.textLowerCase)
    else cleaned
  }

  /** Lines 68-69 and 88-89: the loop that appends one result per document, in
      order. */
  method MapDocuments(normalizeOne: string -> string, corpus: seq<string>) returns (normalized: seq<string>)
    ensures |normalized| == |corpus|
    ensures forall i :: 0 <= i < |corpus| ==> normalized[i] == normalizeOne(corpus[i])
  {
    normalized := [];
    for i := 0 to |corpus|
      invariant |normalized| == i
      invariant forall j :: 0 <= j < i ==> normalized[j] == normalizeOne(corpus[j])
    {
      normalized := normalized + [normalizeOne(corpus[i])];
    }
  }

  /** `normalize_corpus`: one normalised document per input document, in input
      order, each depending only on its own input. */
  method NormalizeCorpus(p: TextPreprocessor, cfg: Config, corpus: seq<string>) returns (normalized: seq<string>)
    ensures |normalized| == |corpus|
    ensures forall i :: 0 <= i < |corpus| ==> normalized[i] == NormalizeDocument(p, cfg, corpus[i])
  {
    normalized := MapDocuments(d => NormalizeDocument(p, cfg, d), corpus);
  }

  /** With stopword removal off the result is the cleaned document itself, so it
      has no two spaces in a row and, when asked, no digit. */
  lemma {:induction false} NormalizeWithoutStopwordRemoval(p: TextPreprocessor, cfg: Config, doc: string)
    requires !cfg.stopwordRemoval
    ensures NoAdjacent(IsBlank, NormalizeDocument(p, cfg, doc))
    ensures cfg.specialCharRemoval && cfg.removeDigits ==>
              forall i :: 0 <= i < |NormalizeDocument(p, cfg, doc)| ==> !IsDigit(NormalizeDocument(p, cfg, doc)[i])
  {
  }

  /** With stopword removal on, no word of the normalised document is a stopword
      (looked up as line 57 or line 59 does), provided some token survives and
      no surviving token holds a space. */
  lemma {:induction false} NoStopwordSurvives(p: TextPreprocessor, cfg: Config, doc: string)
    requires cfg.stopwordRemoval
    requires var ts := SurvivingTokens(p.toolkit, p.stopwords, CleanDocument(p.toolkit, cfg, doc), cfg.textLowerCase);
             |ts| >= 1 && forall i :: 0 <= i < |ts| ==> ' ' !in ts[i]
    ensures forall w :: w in Split(NormalizeDocument(p, cfg, doc)) ==>
              LookupKey(p.toolkit, w, cfg.textLowerCase) !in p.stopwords
  {
    var cleaned := CleanDocument(p.toolkit, cfg, doc);
    var ts := SurvivingTokens(p.toolkit, p.stopwords, cleaned, cfg.textLowerCase);
    assert Split(NormalizeDocument(p, cfg, doc)) == ts;
    forall w | w in ts ensures LookupKey(p.toolkit, w, cfg.textLowerCase) !in p.stopwords {
      var i :| 0 <= i < |ts| && ts[i] == w;
    }
  }

  /** The library functions leave the empty text empty and find no token in it. */
  predicate EmptyStaysEmpty(tk: Toolkit) {
    && tk.htmlText("") == ""
    && tk.nfkd("") == ""
    && tk.fixContractions("") == ""
    && tk.analyze("") == []
    && tk.tokenize("") == []
  }

  /** The empty document normalises to the empty string under every configuration. */
  lemma {:induction false} EmptyDocument(p: TextPreprocessor, cfg: Config)
    requires EmptyStaysEmpty(p.toolkit)
    ensures NormalizeDocument(p, cfg, "") == ""
  {
    var tk := p.toolkit;
    assert Filter(IsAscii, "") == "";
    assert AllAscii("");
    assert CollapseLineBreaks("") == "";
    assert LemmatizeText(tk, "") == "";
    assert PadSpecials("") == "";
    assert CollapseSpaces("") == "";
    assert StrippedTokens(tk, "") == [];
  }

  /** A token whose lookup key is "no" or "not" is never filtered out, whichever
      way the lookup is done, provided the base list held each negation once. */
  lemma {:induction false} NegationsSurvive(tk: Toolkit, base: seq<string>, text: string, isLowerCase: bool, t: string)
    requires "no" in base && "not" in base
    requires multiset(base)["no"] == 1 && multiset(base)["not"] == 1
    requires t in StrippedTokens(tk, text)
    requires LookupKey(tk, t, isLowerCase) == "no" || LookupKey(tk, t, isLowerCase) == "not"
    ensures t in SurvivingTokens(tk, BuildStopwordList(base).value, text, isLowerCase)
  {
    var stopwords := BuildStopwordList(base).value;
    NegationsExcluded(base);
    var ts := SurvivingTokens(tk, stopwords, text, isLowerCase);
    assert multiset(ts)[t] == multiset(StrippedTokens(tk, text))[t];
    assert t in multiset(StrippedTokens(tk, text));
  }

  /** The case-insensitive lookup of line 59 on an ASCII token: its key is "not"
      exactly when the token has three letters that lower to n, o, t ("NOT", "Not",
      "nOt", ...), and "no" exactly when it has two that lower to n, o. So by
      NegationsSurvive every case variant of a negation survives. */
  lemma {:induction false} NegationLookupKeys(tk: Toolkit, t: string)
    requires AllAscii(t)
    ensures LookupKey(tk, t, false) == "not" <==>
              |t| == 3 && ToAsciiLower(t[0]) == 'n' && ToAsciiLower(t[1]) == 'o' && ToAsciiLower(t[2]) == 't'
    ensures LookupKey(tk, t, false) == "no" <==>
              |t| == 2 && ToAsciiLower(t[0]) == 'n' && ToAsciiLower(t[1]) == 'o'
  {
    var k := LookupKey(tk, t, false);
    assert k == AsciiLower(t);
    if |t| == 3 {
      assert k == [k[0], k[1], k[2]];
    }
    if |t| == 2 {
      assert k == [k[0], k[1]];
    }
  }

  predicate IsLowerAscii(c: char) {
    IsAscii(c) && !IsAsciiUpper(c)
  }

  /** The configurations in which, up to line 85, only the stages modelled
      exactly run. */
  predicate LibraryStagesOff(cfg: Config) {
    && !cfg.htmlStripping
    && !cfg.accentedCharRemoval
    && !cfg.contractionExpansion
    && !cfg.textLemmatization
  }

  /** With lower-casing on, the cleaned text is lower-case ASCII whenever the text
      reaching line 77 is ASCII: always when accents are folded, otherwise when the
      document itself is ASCII. HTML stripping, contraction expansion and
      lemmatisation are library stages with no contract, so they are off. */
  lemma {:induction false} CleanDocumentLowerAscii(tk: Toolkit, cfg: Config, doc: string)
    requires !cfg.htmlStripping && !cfg.contractionExpansion && !cfg.textLemmatization
    requires cfg.textLowerCase && (cfg.accentedCharRemoval || AllAscii(doc))
    ensures forall i :: 0 <= i < |CleanDocument(tk, cfg, doc)| ==> IsLowerAscii(CleanDocument(tk, cfg, doc)[i])
  {
    var folded := if cfg.accentedCharRemoval then RemoveAccentedChars(tk, doc) else doc;
    assert AllAscii(folded);
    var lowered := Prepare(tk, cfg, doc);
    assert lowered == Lower(tk.nonAsciiLower, folded);
    var oneLine := CollapseLineBreaks(lowered);
    PropertyCarriesOver(IsLowerAscii, oneLine, lowered);
    var stripped := SpecialCharStage(cfg, oneLine);
    PropertyCarriesOver(IsLowerAscii, stripped, oneLine);
    var r := CollapseSpaces(stripped);
    PropertyCarriesOver(IsLowerAscii, r, stripped);
  }

  /** The texts cleaning leaves as they are: single spaces between words, no CR,
      LF or `|`, only kept characters when special characters are removed, and
      only lower-case ASCII when lower-casing is on. */
  predicate IsCleaned(cfg: Config, s: string) {
    && NoAdjacent(IsBlank, s)
    && (forall i :: 0 <= i < |s| ==> !InLineBreakClass(s[i]))
    && (cfg.specialCharRemoval ==> forall i :: 0 <= i < |s| ==> IsKept(s[i], cfg.removeDigits))
    && (cfg.textLowerCase ==> forall i :: 0 <= i < |s| ==> IsLowerAscii(s[i]))
  }

  /** When only the regular-expression stages and lower-casing run (lower-casing
      on ASCII input), cleaning leaves a text exactly as it is when the text is
      already cleaned. In particular the single spaces between words, which line
      85 keeps one per run, all survive. */
  lemma {:induction false} CleanDocumentFixes(tk: Toolkit, cfg: Config, doc: string)
    requires LibraryStagesOff(cfg)
    requires cfg.textLowerCase ==> AllAscii(doc)
    ensures CleanDocument(tk, cfg, doc) == doc <==> IsCleaned(cfg, doc)
  {
    if IsCleaned(cfg, doc) {
      assert Prepare(tk, cfg, doc) == doc by {
        if cfg.textLowerCase {
          LowerIdentity(tk.nonAsciiLower, doc);
        }
      }
      assert CollapseLineBreaks(doc) == doc;
      assert LemmatizeStage(tk, cfg, doc) == doc;
      assert SpecialCharStage(cfg, doc) == doc by {
        if cfg.specialCharRemoval {
          forall i | 0 <= i < |doc| ensures !IsPadded(doc[i]) {
            if IsPadded(doc[i]) {
              PaddedIsRemoved(doc[i], cfg.removeDigits);
            }
          }
          assert PadSpecials(doc) == doc;
          assert RemoveSpecialCharacters(doc, cfg.removeDigits) == doc;
        }
      }
      assert CollapseSpaces(doc) == doc;
    }
    if CleanDocument(tk, cfg, doc) == doc && cfg.textLowerCase {
      CleanDocumentLowerAscii(tk, cfg, doc);
    }
  }

  /** Cleaning a second time changes nothing when only the regular-expression
      stages and lower-casing run (lower-casing on ASCII input). */
  lemma {:induction false} CleanDocumentIdempotent(tk: Toolkit, cfg: Config, doc: string)
    requires LibraryStagesOff(cfg)
    requires cfg.textLowerCase ==> AllAscii(doc)
    ensures CleanDocument(tk, cfg, CleanDocument(tk, cfg, doc)) == CleanDocument(tk, cfg, doc)
  {
    var x := CleanDocument(tk, cfg, doc);
    if cfg.textLowerCase {
      CleanDocumentLowerAscii(tk, cfg, doc);
    }
    assert IsCleaned(cfg, x);
    CleanDocumentFixes(tk, cfg, x);
  }

  /** Under the default arguments of lines 63-66 (every stage on, digits removed),
      a cleaned document holds only letters of the ranges `a-z` and `A-z` and
      whitespace, no digit, and no two spaces in a row. */
  lemma {:induction false} DefaultCleaning(tk: Toolkit, doc: string)
    ensures var r := CleanDocument(tk, DefaultConfig, doc);
            && NoAdjacent(IsBlank, r)
            && forall i :: 0 <= i < |r| ==> IsKept(r[i], true) && !IsDigit(r[i])
  {
    var r := CleanDocument(tk, DefaultConfig, doc);
    assert DefaultConfig.specialCharRemoval && DefaultConfig.removeDigits;
  }
}

=== FILE: pystrings.dfy ===
/** The two `str` methods the normaliser calls on its own: `strip()` and `lower()`. */
module PyStrings {
  import opened Chars
  import opened Seqs

  predicate NotWhitespace(c: char) {
    !IsWhitespace(c)
  }

  /** The number of whitespace characters that open `s`. */
  function LeadingWhitespace(s: string): (n: nat)
    ensures n <= |s|
    ensures forall k :: 0 <= k < n ==> IsWhitespace(s[k])
    ensures n < |s| ==> !IsWhitespace(s[n])
  {
    if |s| == 0 || !IsWhitespace(s[0]) then 0 else 1 + LeadingWhitespace(s[1..])
  }

  /** The number of whitespace characters that close `s`. */
  function TrailingWhitespace(s: string): (n: nat)
    ensures n <= |s|
    ensures forall k :: |s| - n <= k < |s| ==> IsWhitespace(s[k])
    ensures n < |s| ==> !IsWhitespace(s[|s| - 1 - n])
  {
    if |s| == 0 || !IsWhitespace(s[|s| - 1]) then 0 else 1 + TrailingWhitespace(s[..|s| - 1])
  }

  /** Neither end of `s` is whitespace. */
  predicate Trimmed(s: string) {
    |s| == 0 || (!IsWhitespace(s[0]) && !IsWhitespace(s[|s| - 1]))
  }

  /** Python's `s.strip()`: `s` without its leading and trailing whitespace. The
      result is the piece of `s` that starts after its leading whitespace, neither
      of its ends is whitespace, and it holds every non-whitespace character of `s`
      in order. */
  function Strip(s: string): (r: string)
    ensures Trimmed(r)
    ensures LeadingWhitespace(s) + |r| <= |s|
    ensures r == s[LeadingWhitespace(s)..LeadingWhitespace(s) + |r|]
    ensures Filter(NotWhitespace, r) == Filter(NotWhitespace, s)
  {
    var lead := LeadingWhitespace(s);
    var end := if lead == |s| then |s| else |s| - TrailingWhitespace(s);
    assert lead <= end;
    FilterSlice(NotWhitespace, s, lead, end);
    s[lead..end]
  }

  /** Stripping changes a string exactly when one of its ends is whitespace. */
  lemma {:induction false} StripIdentity(s: string)
    ensures Strip(s) == s <==> Trimmed(s)
  {
    if Trimmed(s) && |s| > 0 {
      assert LeadingWhitespace(s) == 0;
      assert TrailingWhitespace(s) == 0;
    }
  }

  lemma {:induction false} StripIdempotent(s: string)
    ensures Strip(Strip(s)) == Strip(s)
  {
    StripIdentity(Strip(s));
  }

  /** Each ASCII character mapped to its lower-case partner. */
  function AsciiLower(s: string): (r: string)
    ensures |r| == |s|
    ensures forall i :: 0 <= i < |s| ==> r[i] == ToAsciiLower(s[i])
  {
    if |s| == 0 then "" else [ToAsciiLower(s[0])] + AsciiLower(s[1..])
  }

  /** Python's `s.lower()`. On ASCII text it lowers exactly the capitals A-Z and
      leaves every other character where it is; the Unicode case mapping of text
      holding other characters (with its context-dependent final sigma) is the
      parameter `nonAsciiLower`. */
  function Lower(nonAsciiLower: string -> string, s: string): (r: string)
    ensures AllAscii(s) ==> |r| == |s| && AllAscii(r)
    ensures AllAscii(s) ==> forall i :: 0 <= i < |r| ==> !IsAsciiUpper(r[i])
    ensures AllAscii(s) ==> forall i :: 0 <= i < |s| && !IsAsciiUpper(s[i]) ==> r[i] == s[i]
    ensures AllAscii(s) ==> forall i :: 0 <= i < |s| && IsAsciiUpper(s[i]) ==> r[i] as int == s[i] as int + 32
  {
    if AllAscii(s) then AsciiLower(s) else nonAsciiLower(s)
  }

  /** ASCII text without capitals is its own lower case. */
  lemma {:induction false} LowerIdentity(nonAsciiLower: string -> string, s: string)
    requires AllAscii(s)
    ensures Lower(nonAsciiLower, s) == s <==> forall i :: 0 <= i < |s| ==> !IsAsciiUpper(s[i])
  {
  }

  lemma {:induction false} LowerIdempotent(nonAsciiLower: string -> string, s: string)
    requires AllAscii(s)
    ensures Lower(nonAsciiLower, Lower(nonAsciiLower, s)) == Lower(nonAsciiLower, s)
  {
    LowerIdentity(nonAsciiLower, Lower(nonAsciiLower, s));
  }
}

=== FILE: regex_stages.dfy ===
/** The regular-expression stages of the normaliser, with each pattern modelled as
    it is written in preprocess/normalize.py:
    - `[\r|\n|\r\n]+` → ' '   (line 78, always applied)
    - `([{.(-)!}])`   → ' \1 ' (lines 82-83)
    - `[^a-zA-z0-9\s]` or `[^a-zA-z\s]` → '' (lines 44-45)
    - `' +'`          → ' '   (line 85, always applied) */
module RegexStages {
  import opened Chars
  import opened Seqs

  /** Every character of `r` is a space or a character of `s`: what each of the
      substitutions at lines 78, 82-84 and 85 guarantees. */
  predicate SpacesOrFrom(r: string, s: string) {
    forall i :: 0 <= i < |r| ==> r[i] == ' ' || r[i] in s
  }

  // ---------------------------------------------------------------------------
  // `re.sub('[class]+', ' ', s)`

  /** The length of the run of class characters that opens `s`. */
  function RunLength(inRun: char -> bool, s: string): (n: nat)
    ensures n <= |s|
    ensures forall k :: 0 <= k < n ==> inRun(s[k])
    ensures n < |s| ==> !inRun(s[n])
  {
    if |s| == 0 || !inRun(s[0]) then 0 else 1 + RunLength(inRun, s[1..])
  }

  /** The characters a run replacement never creates nor deletes: those outside
      the class other than the space. */
  function Untouched(inRun: char -> bool): char -> bool {
    c => !inRun(c) && c != ' '
  }

  /** `re.sub` of the pattern `[class]+` with a single space: every maximal run of
      class characters becomes one space, every other character stays. */
  function ReplaceRuns(inRun: char -> bool, s: string): string
    decreases |s|
  {
    if |s| == 0 then ""
    else if inRun(s[0]) then " " + ReplaceRuns(inRun, s[RunLength(inRun, s)..])
    else [s[0]] + ReplaceRuns(inRun, s[1..])
  }

  /** The replacement is no longer than the text; it opens with a space exactly
      where the text opens with a run; each of its characters is the replacement
      space or a character of the text outside the class; and no two class
      characters touch in it. */
  lemma {:induction false} ReplaceRunsShape(inRun: char -> bool, s: string)
    ensures |ReplaceRuns(inRun, s)| <= |s|
    ensures |s| > 0 && inRun(s[0]) ==> |ReplaceRuns(inRun, s)| > 0 && ReplaceRuns(inRun, s)[0] == ' '
    ensures |s| > 0 && !inRun(s[0]) ==> |ReplaceRuns(inRun, s)| > 0 && ReplaceRuns(inRun, s)[0] == s[0]
    ensures forall i :: 0 <= i < |ReplaceRuns(inRun, s)| ==>
              ReplaceRuns(inRun, s)[i] == ' ' || (!inRun(ReplaceRuns(inRun, s)[i]) && ReplaceRuns(inRun, s)[i] in s)
    ensures NoAdjacent(inRun, ReplaceRuns(inRun, s))
    decreases |s|
  {
    if |s| > 0 {
      var n := if inRun(s[0]) then RunLength(inRun, s) else 1;
      var t := s[n..];
      var rest := ReplaceRuns(inRun, t);
      ReplaceRunsShape(inRun, t);
      var head := if inRun(s[0]) then ' ' else s[0];
      var r := ReplaceRuns(inRun, s);
      assert r == [head] + rest;
      forall i | 0 <= i < |r| ensures r[i] == ' ' || (!inRun(r[i]) && r[i] in s) {
        if i > 0 {
          assert r[i] == rest[i - 1];
          if rest[i - 1] != ' ' {
            var k :| 0 <= k < |t| && t[k] == rest[i - 1];
            assert s[n + k] == t[k];
          }
        }
      }
      forall i | 0 < i < |r| ensures !(inRun(r[i - 1]) && inRun(r[i])) {
        if i > 1 {
          assert r[i - 1] == rest[i - 2] && r[i] == rest[i - 1];
        }
      }
    }
  }

  /** The replacement keeps the characters it never touches, in order. */
  lemma {:induction false} ReplaceRunsContent(inRun: char -> bool, s: string)
    ensures Filter(Untouched(inRun), ReplaceRuns(inRun, s)) == Filter(Untouched(inRun), s)
    decreases |s|
  {
    var keep := Untouched(inRun);
    if |s| > 0 {
      if inRun(s[0]) {
        var n := RunLength(inRun, s);
        var rest := ReplaceRuns(inRun, s[n..]);
        ReplaceRunsContent(inRun, s[n..]);
        assert s == s[..n] + s[n..];
        FilterAppend(keep, s[..n], s[n..]);
        FilterEmpty(keep, s[..n]);
        FilterAppend(keep, " ", rest);
      } else {
        var rest := ReplaceRuns(inRun, s[1..]);
        ReplaceRunsContent(inRun, s[1..]);
        assert s == [s[0]] + s[1..];
        FilterAppend(keep, [s[0]], s[1..]);
        FilterAppend(keep, [s[0]], rest);
      }
    }
  }

  /** The only class character in `s` is the space, and no two class characters
      touch: the texts a run replacement leaves alone. */
  predicate RunFree(inRun: char -> bool, s: string) {
    && (forall i :: 0 <= i < |s| && inRun(s[i]) ==> s[i] == ' ')
    && NoAdjacent(inRun, s)
  }

  lemma {:induction false} RunFreeTail(inRun: char -> bool, s: string)
    requires |s| > 0 && RunFree(inRun, s)
    ensures RunFree(inRun, s[1..])
  {
    var t := s[1..];
    forall i | 0 <= i < |t| && inRun(t[i]) ensures t[i] == ' ' {
      assert t[i] == s[i + 1];
    }
    forall i | 0 < i < |t| ensures !(inRun(t[i - 1]) && inRun(t[i])) {
      assert t[i - 1] == s[i] && t[i] == s[i + 1];
    }
  }

  lemma {:induction false} ReplaceRunsFixes(inRun: char -> bool, s: string)
    requires RunFree(inRun, s)
    ensures ReplaceRuns(inRun, s) == s
    decreases |s|
  {
    if |s| > 0 {
      RunFreeTail(inRun, s);
      ReplaceRunsFixes(inRun, s[1..]);
      if inRun(s[0]) {
        assert |s| > 1 ==> !inRun(s[1]);
        assert RunLength(inRun, s) == 1;
      }
      assert s == [s[0]] + s[1..];
    }
  }

  /** A replacement leaves `s` as it is exactly when the only class character in it
      is the space and no two class characters touch. */
  lemma {:induction false} ReplaceRunsIdentity(inRun: char -> bool, s: string)
    ensures ReplaceRuns(inRun, s) == s <==> RunFree(inRun, s)
  {
    ReplaceRunsShape(inRun, s);
    if RunFree(inRun, s) {
      ReplaceRunsFixes(inRun, s);
    }
  }

  /** A run boundary lies wherever a character outside the class ends the prefix:
      the replacement of `a + b` is the replacement of `a` followed by that of `b`. */
  lemma {:induction false} ReplaceRunsAppend(inRun: char -> bool, a: string, b: string)
    requires |a| == 0 || !inRun(a[|a| - 1])
    ensures ReplaceRuns(inRun, a + b) == ReplaceRuns(inRun, a) + ReplaceRuns(inRun, b)
    decreases |a|
  {
    var ab := a + b;
    if |a| == 0 {
      assert ab == b;
    } else if inRun(a[0]) {
      var n := RunLength(inRun, a);
      var m := RunLength(inRun, ab);
      assert n < |a|;
      assert !inRun(ab[n]);
      assert m == n;
      assert ab[n..] == a[n..] + b;
      ReplaceRunsAppend(inRun, a[n..], b);
    } else {
      assert ab[1..] == a[1..] + b;
      ReplaceRunsAppend(inRun, a[1..], b);
    }
  }

  /** A whole run of class characters, ended by a character outside the class or
      by the end of the text, becomes exactly one space. */
  lemma {:induction false} ReplaceRunsCollapse(inRun: char -> bool, run: string, b: string)
    requires |run| > 0
    requires forall k :: 0 <= k < |run| ==> inRun(run[k])
    requires |b| == 0 || !inRun(b[0])
    ensures ReplaceRuns(inRun, run + b) == " " + ReplaceRuns(inRun, b)
  {
    var s := run + b;
    assert forall k :: 0 <= k < |run| ==> s[k] == run[k];
    assert |b| > 0 ==> s[|run|] == b[0];
    var n := RunLength(inRun, s);
    assert n == |run|;
    assert s[n..] == b;
  }

  /** A text that ends outside the class keeps its last character. */
  lemma {:induction false} ReplaceRunsKeepsLast(inRun: char -> bool, s: string)
    requires |s| > 0 && !inRun(s[|s| - 1])
    ensures |ReplaceRuns(inRun, s)| > 0
    ensures ReplaceRuns(inRun, s)[|ReplaceRuns(inRun, s)| - 1] == s[|s| - 1]
    decreases |s|
  {
    var n := if inRun(s[0]) then RunLength(inRun, s) else 1;
    var head := if inRun(s[0]) then " " else [s[0]];
    assert ReplaceRuns(inRun, s) == head + ReplaceRuns(inRun, s[n..]);
    if n < |s| {
      assert s[n..][|s[n..]| - 1] == s[|s| - 1];
      ReplaceRunsKeepsLast(inRun, s[n..]);
    } else {
      assert !inRun(s[0]);
    }
  }

  /** A single space between two pieces that touch it with characters outside
      the class stays a single space: the replacement treats the pieces apart,
      and each keeps its outer character. */
  lemma {:induction false} ReplaceRunsSeparates(inRun: char -> bool, a: string, b: string)
    requires |a| > 0 && !inRun(a[|a| - 1])
    requires |b| > 0 && !inRun(b[0])
    ensures ReplaceRuns(inRun, a + " " + b) == ReplaceRuns(inRun, a) + " " + ReplaceRuns(inRun, b)
    ensures |ReplaceRuns(inRun, a)| > 0
    ensures ReplaceRuns(inRun, a)[|ReplaceRuns(inRun, a)| - 1] == a[|a| - 1]
    ensures |ReplaceRuns(inRun, b)| > 0 && ReplaceRuns(inRun, b)[0] == b[0]
  {
    assert a + " " + b == a + (" " + b);
    ReplaceRunsAppend(inRun, a, " " + b);
    if inRun(' ') {
      ReplaceRunsCollapse(inRun, " ", b);
    } else {
      ReplaceRunsAppend(inRun, " ", b);
      assert " "[1..] == "";
      assert ReplaceRuns(inRun, " ") == " ";
    }
    ReplaceRunsKeepsLast(inRun, a);
    ReplaceRunsShape(inRun, b);
  }

  // ---------------------------------------------------------------------------
  // Line 78: `re.sub(r'[\r|\n|\r\n]+', ' ', doc)`

  /** The bracket expression `[\r|\n|\r\n]` as written: a character class, not an
      alternation, so besides CR and LF it holds the vertical bar. */
  predicate InLineBreakClass(c: char) {
    c == '\r' || c == '|' || c == '\n'
  }

  /** Every run of CR, LF and `|` becomes one space. The result holds none of those
      characters, keeps every other non-space character in order, and equals the
      input exactly when the input held none. */
  function CollapseLineBreaks(s: string): (r: string)
    ensures forall i :: 0 <= i < |r| ==> !InLineBreakClass(r[i])
    ensures SpacesOrFrom(r, s)
    ensures r == s <==> forall i :: 0 <= i < |s| ==> !InLineBreakClass(s[i])
    ensures |r| <= |s|
    ensures Filter(Untouched(InLineBreakClass), r) == Filter(Untouched(InLineBreakClass), s)
  {
    ReplaceRunsShape(InLineBreakClass, s);
    ReplaceRunsContent(InLineBreakClass, s);
    ReplaceRunsIdentity(InLineBreakClass, s);
    ReplaceRuns(InLineBreakClass, s)
  }

  // ---------------------------------------------------------------------------
  // Line 85: `re.sub(' +', ' ', doc)`

  /** Every run of spaces becomes one space; other whitespace is not touched. The
      result has no two spaces in a row, the same non-space characters in the same
      order, and equals the input exactly when the input had no two spaces in a row. */
  function CollapseSpaces(s: string): (r: string)
    ensures NoAdjacent(IsBlank, r)
    ensures Filter(Untouched(IsBlank), r) == Filter(Untouched(IsBlank), s)
    ensures SpacesOrFrom(r, s)
    ensures r == s <==> NoAdjacent(IsBlank, s)
    ensures |r| <= |s|
  {
    ReplaceRunsShape(IsBlank, s);
    ReplaceRunsContent(IsBlank, s);
    ReplaceRunsIdentity(IsBlank, s);
    ReplaceRuns(IsBlank, s)
  }

  lemma {:induction false} CollapseSpacesIdempotent(s: string)
    ensures CollapseSpaces(CollapseSpaces(s)) == CollapseSpaces(s)
  {
  }

  // ---------------------------------------------------------------------------
  // Lines 82-83: `re.compile(r'([{.(-)!}])').sub(" \\1 ", doc)`

  /** The class `[{.(-)!}]` as written: `(-)` is the range from `(` to `)`, so the
      class holds `{ . ( ) ! }` and not the hyphen. */
  predicate IsPadded(c: char) {
    c == '{' || c == '.' || ('(' <= c <= ')') || c == '!' || c == '}'
  }

  function PadChar(c: char): string {
    if IsPadded(c) then [' ', c, ' '] else [c]
  }

  /** The substitution itself, character by character. */
  function Pad(s: string): string
    decreases |s|
  {
    if |s| == 0 then "" else PadChar(s[0]) + Pad(s[1..])
  }

  /** Padding works character by character. */
  lemma {:induction false} PadAppend(a: string, b: string)
    ensures Pad(a + b) == Pad(a) + Pad(b)
    decreases |a|
  {
    if |a| == 0 {
      assert a + b == b;
    } else {
      assert (a + b)[1..] == a[1..] + b;
      PadAppend(a[1..], b);
    }
  }

  lemma {:induction false} PadOfChar(c: char)
    ensures Pad([c]) == if IsPadded(c) then [' ', c, ' '] else [c]
  {
    assert [c][1..] == [];
  }

  lemma {:induction false} PadLength(s: string)
    ensures |Pad(s)| == |s| + 2 * |Filter(IsPadded, s)|
    decreases |s|
  {
    if |s| > 0 {
      PadLength(s[1..]);
    }
  }

  lemma {:induction false} PadOnlyAddsSpaces(s: string)
    ensures Filter(Untouched(IsBlank), Pad(s)) == Filter(Untouched(IsBlank), s)
    ensures SpacesOrFrom(Pad(s), s)
    decreases |s|
  {
    if |s| > 0 {
      PadOnlyAddsSpaces(s[1..]);
      var c := s[0];
      FilterAppend(Untouched(IsBlank), PadChar(c), Pad(s[1..]));
      FilterAppend(Untouched(IsBlank), [c], s[1..]);
      assert s == [c] + s[1..];
      if IsPadded(c) {
        assert PadChar(c) == [' '] + [c] + [' '];
        FilterAppend(Untouched(IsBlank), [' '] + [c], [' ']);
        FilterAppend(Untouched(IsBlank), [' '], [c]);
      }
    }
  }

  lemma {:induction false} PadSurrounds(s: string)
    ensures forall i :: 0 <= i < |Pad(s)| && IsPadded(Pad(s)[i]) ==>
              0 < i < |Pad(s)| - 1 && Pad(s)[i - 1] == ' ' && Pad(s)[i + 1] == ' '
    decreases |s|
  {
    if |s| > 0 {
      PadSurrounds(s[1..]);
      var p := PadChar(s[0]);
      var rest := Pad(s[1..]);
      assert Pad(s) == p + rest;
      forall i | 0 <= i < |Pad(s)| && IsPadded(Pad(s)[i])
        ensures 0 < i < |Pad(s)| - 1 && Pad(s)[i - 1] == ' ' && Pad(s)[i + 1] == ' '
      {
        if i >= |p| {
          assert Pad(s)[i] == rest[i - |p|];
          assert Pad(s)[i - 1] == rest[i - 1 - |p|];
          assert Pad(s)[i + 1] == rest[i + 1 - |p|];
        }
      }
    }
  }

  lemma {:induction false} PadIdentity(s: string)
    ensures Pad(s) == s <==> forall i :: 0 <= i < |s| ==> !IsPadded(s[i])
    decreases |s|
  {
    PadLength(s);
    FilterEmpty(IsPadded, s);
    if |s| > 0 {
      PadIdentity(s[1..]);
    }
  }

  /** Lines 82-83: each of `{ . ( ) ! }` is replaced by itself between two
      spaces; nothing else changes. So only spaces are added, two per padded
      character, each padded character of the result has a space on both sides,
      and text without padded characters comes back unchanged. */
  function PadSpecials(s: string): (r: string)
    ensures |r| == |s| + 2 * |Filter(IsPadded, s)|
    ensures Filter(Untouched(IsBlank), r) == Filter(Untouched(IsBlank), s)
    ensures forall i :: 0 <= i < |r| && IsPadded(r[i]) ==> 0 < i < |r| - 1 && r[i - 1] == ' ' && r[i + 1] == ' '
    ensures SpacesOrFrom(r, s)
    ensures r == s <==> forall i :: 0 <= i < |s| ==> !IsPadded(s[i])
  {
    PadLength(s);
    PadOnlyAddsSpaces(s);
    PadSurrounds(s);
    PadIdentity(s);
    Pad(s)
  }

  // ---------------------------------------------------------------------------
  // Lines 43-46: `re.sub(r'[^a-zA-z0-9\s]', '', text)`, or `r'[^a-zA-z\s]'`

  /** The characters the pattern lets through, as written: the range `A-z` runs
      from 'A' to 'z' and so also keeps `[ \ ] ^ _` and the backtick; digits are
      kept unless `removeDigits`; `\s` is Python's Unicode whitespace. */
  predicate IsKept(c: char, removeDigits: bool) {
    || ('a' <= c <= 'z')
    || ('A' <= c <= 'z')
    || (!removeDigits && '0' <= c <= '9')
    || IsWhitespace(c)
  }

  function Keeps(removeDigits: bool): char -> bool {
    c => IsKept(c, removeDigits)
  }

  /** The kept characters other than the space: those that come through padding
      and removal unchanged, in order. */
  function KeptNonBlank(removeDigits: bool): char -> bool {
    c => IsKept(c, removeDigits) && c != ' '
  }

  lemma {:induction false} KeptNonBlankNarrows(removeDigits: bool)
    ensures forall c :: KeptNonBlank(removeDigits)(c) ==> Keeps(removeDigits)(c)
    ensures forall c :: KeptNonBlank(removeDigits)(c) ==> Untouched(IsBlank)(c)
  {
    forall c | KeptNonBlank(removeDigits)(c) ensures Untouched(IsBlank)(c) {
      assert !IsBlank(c);
      assert Untouched(IsBlank)(c) == (!IsBlank(c) && c != ' ');
    }
  }

  /** `remove_special_characters`: deletes every character the pattern does not
      keep. The result holds only kept characters, in their original order, each as
      many times as in the input; with `removeDigits` it holds no digit; it equals
      the input exactly when every input character is kept. */
  function RemoveSpecialCharacters(s: string, removeDigits: bool): (r: string)
    ensures forall i :: 0 <= i < |r| ==> IsKept(r[i], removeDigits) && r[i] in s
    ensures IsSubsequence(r, s)
    ensures forall c {:trigger multiset(r)[c]} :: IsKept(c, removeDigits) ==> multiset(r)[c] == multiset(s)[c]
    ensures removeDigits ==> forall i :: 0 <= i < |r| ==> !IsDigit(r[i])
    ensures r == s <==> forall i :: 0 <= i < |s| ==> IsKept(s[i], removeDigits)
  {
    var keep := Keeps(removeDigits);
    var r := Filter(keep, s);
    assert forall i :: 0 <= i < |r| ==> IsKept(r[i], removeDigits) && r[i] in s by {
      FilterCounts(keep, s);
      assert forall i :: 0 <= i < |r| ==> keep(r[i]);
    }
    assert IsSubsequence(r, s) by {
      FilterSubsequence(keep, s);
    }
    assert forall c {:trigger multiset(r)[c]} :: IsKept(c, removeDigits) ==> multiset(r)[c] == multiset(s)[c] by {
      FilterCounts(keep, s);
      assert forall c :: IsKept(c, removeDigits) ==> keep(c);
    }
    assert r == s <==> forall i :: 0 <= i < |s| ==> IsKept(s[i], removeDigits) by {
      FilterIdentity(keep, s);
    }
    r
  }

  /** Every padded character is one the removal deletes. */
  lemma {:induction false} PaddedIsRemoved(c: char, removeDigits: bool)
    requires IsPadded(c)
    ensures !IsKept(c, removeDigits)
  {
  }

  lemma {:induction false} RemoveSpecialCharactersIdempotent(s: string, removeDigits: bool)
    ensures RemoveSpecialCharacters(RemoveSpecialCharacters(s, removeDigits), removeDigits)
            == RemoveSpecialCharacters(s, removeDigits)
  {
  }

  /** The range `A-z` as written keeps the six punctuation marks between 'Z' and
      'a', in both modes. */
  lemma {:induction false} AsciiRangeKeepsPunctuation(removeDigits: bool)
    ensures forall c :: '[' <= c <= '`' ==> IsKept(c, removeDigits)
    ensures IsKept('_', removeDigits) && IsKept('^', removeDigits) && IsKept('\\', removeDigits)
  {
  }

  /** Removal works character by character. */
  lemma {:induction false} RemoveSpecialCharactersAppend(a: string, b: string, removeDigits: bool)
    ensures RemoveSpecialCharacters(a + b, removeDigits)
            == RemoveSpecialCharacters(a, removeDigits) + RemoveSpecialCharacters(b, removeDigits)
  {
    FilterAppend(Keeps(removeDigits), a, b);
  }

  /** Removal of a padded character with its two spaces leaves the two spaces. */
  lemma {:induction false} RemovePaddedChar(c: char, removeDigits: bool)
    requires !IsKept(c, removeDigits)
    ensures Filter(Keeps(removeDigits), [' ', c, ' ']) == "  "
  {
    var k := Keeps(removeDigits);
    assert [' '][1..] == [];
    assert Filter(k, [' ']) == [' '];
    assert [c, ' '][1..] == [' '];
    assert Filter(k, [c, ' ']) == [' '];
    assert [' ', c, ' '][1..] == [c, ' '];
  }

  /** Padding then removal, seen through the raw definitions. */
  lemma {:induction false} PadThenRemove(s: string, removeDigits: bool)
    ensures RemoveSpecialCharacters(PadSpecials(s), removeDigits) == Filter(Keeps(removeDigits), Pad(s))
  {
  }

  /** Padding and then filtering `a + [c] + b` treats its three pieces apart. */
  lemma {:induction false} PadThenFilterAround(a: string, c: char, b: string, removeDigits: bool)
    ensures Filter(Keeps(removeDigits), Pad(a + [c] + b))
            == Filter(Keeps(removeDigits), Pad(a)) + Filter(Keeps(removeDigits), PadChar(c))
               + Filter(Keeps(removeDigits), Pad(b))
  {
    var k := Keeps(removeDigits);
    PadAppend(a + [c], b);
    PadAppend(a, [c]);
    PadOfChar(c);
    FilterAppend(k, Pad(a) + PadChar(c), Pad(b));
    FilterAppend(k, Pad(a), PadChar(c));
  }

  lemma {:induction false} PadFilterPadded(a: string, c: char, b: string, removeDigits: bool)
    requires IsPadded(c)
    ensures Filter(Keeps(removeDigits), Pad(a + [c] + b))
            == Filter(Keeps(removeDigits), Pad(a)) + "  " + Filter(Keeps(removeDigits), Pad(b))
  {
    PadThenFilterAround(a, c, b, removeDigits);
    assert PadChar(c) == [' ', c, ' '];
    RemovePaddedChar(c, removeDigits);
  }

  lemma {:induction false} PadFilterUnpadded(a: string, c: char, b: string, removeDigits: bool)
    requires !IsPadded(c) && !IsKept(c, removeDigits)
    ensures Filter(Keeps(removeDigits), Pad(a + [c] + b))
            == Filter(Keeps(removeDigits), Pad(a)) + Filter(Keeps(removeDigits), Pad(b))
  {
    var k := Keeps(removeDigits);
    var fa, fb := Filter(k, Pad(a)), Filter(k, Pad(b));
    PadThenFilterAround(a, c, b, removeDigits);
    assert PadChar(c) == [c];
    assert Filter(k, [c]) == [] by {
      assert [c][1..] == [];
    }
    assert fa + [] + fb == fa + fb;
  }

  /** Padding and filtering a single kept character leaves it alone. */
  lemma {:induction false} PadFilterKeptChar(c: char, removeDigits: bool)
    requires IsKept(c, removeDigits)
    ensures Filter(Keeps(removeDigits), Pad([c])) == [c]
  {
    assert !IsPadded(c);
    PadOfChar(c);
    assert [c][1..] == [];
  }

  /** Padding and filtering keep a space, and treat the text on its two sides apart. */
  lemma {:induction false} PadFilterSpace(a: string, b: string, removeDigits: bool)
    ensures Filter(Keeps(removeDigits), Pad(a + " " + b))
            == Filter(Keeps(removeDigits), Pad(a)) + " " + Filter(Keeps(removeDigits), Pad(b))
  {
    var k := Keeps(removeDigits);
    assert a + " " + b == a + (" " + b);
    PadAppend(a, " " + b);
    PadAppend(" ", b);
    PadFilterKeptChar(' ', removeDigits);
    FilterAppend(k, Pad(a), Pad(" ") + Pad(b));
    FilterAppend(k, Pad(" "), Pad(b));
  }

  lemma {:induction false} PadFilterLast(a: string, removeDigits: bool)
    requires |a| > 0 && IsKept(a[|a| - 1], removeDigits)
    ensures Filter(Keeps(removeDigits), Pad(a))
            == Filter(Keeps(removeDigits), Pad(a[..|a| - 1])) + [a[|a| - 1]]
  {
    var c := a[|a| - 1];
    assert a == a[..|a| - 1] + [c];
    PadAppend(a[..|a| - 1], [c]);
    PadFilterKeptChar(c, removeDigits);
    FilterAppend(Keeps(removeDigits), Pad(a[..|a| - 1]), Pad([c]));
  }

  lemma {:induction false} PadFilterFirst(b: string, removeDigits: bool)
    requires |b| > 0 && IsKept(b[0], removeDigits)
    ensures Filter(Keeps(removeDigits), Pad(b)) == [b[0]] + Filter(Keeps(removeDigits), Pad(b[1..]))
  {
    var d := b[0];
    assert b == [d] + b[1..];
    PadAppend([d], b[1..]);
    PadFilterKeptChar(d, removeDigits);
    FilterAppend(Keeps(removeDigits), Pad([d]), Pad(b[1..]));
  }

  /** Padding and removal keep a space between two pieces whose touching
      characters are kept: the pieces are treated apart and keep those characters. */
  lemma {:induction false} PadThenRemoveSeparates(a: string, b: string, removeDigits: bool)
    requires |a| > 0 && IsKept(a[|a| - 1], removeDigits)
    requires |b| > 0 && IsKept(b[0], removeDigits)
    ensures Filter(Keeps(removeDigits), Pad(a + " " + b))
            == Filter(Keeps(removeDigits), Pad(a)) + " " + Filter(Keeps(removeDigits), Pad(b))
    ensures Filter(Keeps(removeDigits), Pad(a)) == Filter(Keeps(removeDigits), Pad(a[..|a| - 1])) + [a[|a| - 1]]
    ensures Filter(Keeps(removeDigits), Pad(b)) == [b[0]] + Filter(Keeps(removeDigits), Pad(b[1..]))
  {
    PadFilterSpace(a, b, removeDigits);
    PadFilterLast(a, removeDigits);
    PadFilterFirst(b, removeDigits);
  }

  /** Padding before removal: a padded character between two pieces of text
      becomes two spaces, so the words on its two sides stay apart. */
  lemma {:induction false} PaddedCharacterSeparates(a: string, c: char, b: string, removeDigits: bool)
    requires IsPadded(c)
    ensures RemoveSpecialCharacters(PadSpecials(a + [c] + b), removeDigits)
            == RemoveSpecialCharacters(PadSpecials(a), removeDigits) + "  "
               + RemoveSpecialCharacters(PadSpecials(b), removeDigits)
  {
    PadFilterPadded(a, c, b, removeDigits);
    PadThenRemove(a + [c] + b, removeDigits);
    PadThenRemove(a, removeDigits);
    PadThenRemove(b, removeDigits);
  }

  /** A character that is neither padded nor kept simply disappears, and the
      words on its two sides run together. */
  lemma {:induction false} UnpaddedCharacterJoins(a: string, c: char, b: string, removeDigits: bool)
    requires !IsPadded(c) && !IsKept(c, removeDigits)
    ensures RemoveSpecialCharacters(PadSpecials(a + [c] + b), removeDigits)
            == RemoveSpecialCharacters(PadSpecials(a), removeDigits)
               + RemoveSpecialCharacters(PadSpecials(b), removeDigits)
  {
    PadFilterUnpadded(a, c, b, removeDigits);
    PadThenRemove(a + [c] + b, removeDigits);
    PadThenRemove(a, removeDigits);
    PadThenRemove(b, removeDigits);
  }

  /** The hyphen is outside the padded class as written, so removal fuses the
      words around it: "well-known" becomes "wellknown". */
  lemma {:induction false} HyphenJoinsWords(a: string, b: string, removeDigits: bool)
    ensures RemoveSpecialCharacters(PadSpecials(a + ['-'] + b), removeDigits)
            == RemoveSpecialCharacters(PadSpecials(a), removeDigits)
               + RemoveSpecialCharacters(PadSpecials(b), removeDigits)
  {
    UnpaddedCharacterJoins(a, '-', b, removeDigits);
  }
}

=== FILE: seqs.dfy ===
/** Order-preserving filtering, and joining and splitting on a single space. */
module Seqs {

  /** `r` can be obtained from `s` by deleting elements, keeping the rest in order. */
  ghost predicate IsSubsequence<T>(r: seq<T>, s: seq<T>)
    decreases |s|
  {
    || |r| == 0
    || (&& |s| > 0
        && (|| (r[0] == s[0] && IsSubsequence(r[1..], s[1..]))
            || IsSubsequence(r, s[1..])))
  }

  /** The elements of `s` that satisfy `keep`, in their original order: a list
      comprehension `[x for x in s if keep(x)]`, or `re.sub` of a character class
      with the empty string. FilterSubsequence and FilterCounts state that nothing
      else is lost. */
  function Filter<T(!new)>(keep: T -> bool, s: seq<T>): (r: seq<T>)
    ensures forall i :: 0 <= i < |r| ==> keep(r[i])
    ensures |r| <= |s|
    decreases |s|
  {
    if |s| == 0 then []
    else if keep(s[0]) then [s[0]] + Filter(keep, s[1..])
    else Filter(keep, s[1..])
  }

  /** The kept elements appear in the input in the same order. */
  lemma {:induction false} FilterSubsequence<T(!new)>(keep: T -> bool, s: seq<T>)
    ensures IsSubsequence(Filter(keep, s), s)
    decreases |s|
  {
    if |s| > 0 {
      FilterSubsequence(keep, s[1..]);
      if keep(s[0]) {
        assert Filter(keep, s)[1..] == Filter(keep, s[1..]);
      }
    }
  }

  /** Every element that satisfies `keep` survives as often as it occurs, and every
      survivor comes from the input. */
  lemma {:induction false} FilterCounts<T(!new)>(keep: T -> bool, s: seq<T>)
    ensures forall x {:trigger multiset(Filter(keep, s))[x]} :: keep(x) ==> multiset(Filter(keep, s))[x] == multiset(s)[x]
    ensures forall x {:trigger multiset(Filter(keep, s))[x]} :: !keep(x) ==> multiset(Filter(keep, s))[x] == 0
    ensures forall i :: 0 <= i < |Filter(keep, s)| ==> Filter(keep, s)[i] in s
    decreases |s|
  {
    if |s| > 0 {
      FilterCounts(keep, s[1..]);
      assert s == [s[0]] + s[1..];
      var r := Filter(keep, s);
      forall i | 0 <= i < |r| ensures r[i] in s {
        assert r[i] in multiset(r);
      }
    }
  }

  lemma {:induction false} FilterAppend<T(!new)>(keep: T -> bool, a: seq<T>, b: seq<T>)
    ensures Filter(keep, a + b) == Filter(keep, a) + Filter(keep, b)
    decreases |a|
  {
    if |a| > 0 {
      var ab := a + b;
      assert ab[0] == a[0];
      assert ab[1..] == a[1..] + b;
      FilterAppend(keep, a[1..], b);
    } else {
      assert a + b == b;
    }
  }

  /** Filtering changes nothing exactly when every element is kept. */
  lemma {:induction false} FilterIdentity<T(!new)>(keep: T -> bool, s: seq<T>)
    ensures Filter(keep, s) == s <==> forall i :: 0 <= i < |s| ==> keep(s[i])
    decreases |s|
  {
    if |s| > 0 && forall i :: 0 <= i < |s| ==> keep(s[i]) {
      FilterIdentity(keep, s[1..]);
    }
  }

  /** Filtering keeps nothing exactly when no element is kept. */
  lemma {:induction false} FilterEmpty<T(!new)>(keep: T -> bool, s: seq<T>)
    ensures Filter(keep, s) == [] <==> forall i :: 0 <= i < |s| ==> !keep(s[i])
    decreases |s|
  {
    if |s| > 0 {
      FilterEmpty(keep, s[1..]);
      if keep(s[0]) {
        assert Filter(keep, s)[0] == s[0];
      }
    }
  }

  lemma {:induction false} FilterNone<T(!new)>(keep: T -> bool, s: seq<T>)
    requires forall i :: 0 <= i < |s| ==> !keep(s[i])
    ensures Filter(keep, s) == []
  {
    FilterEmpty(keep, s);
  }

  /** Cutting off a prefix and a suffix the filter drops anyway changes nothing. */
  lemma {:induction false} FilterSlice<T(!new)>(keep: T -> bool, s: seq<T>, lo: nat, hi: nat)
    requires lo <= hi <= |s|
    requires forall k :: 0 <= k < lo ==> !keep(s[k])
    requires forall k :: hi <= k < |s| ==> !keep(s[k])
    ensures Filter(keep, s[lo..hi]) == Filter(keep, s)
  {
    var a, t := s[..lo], s[lo..];
    var m, c := t[..hi - lo], t[hi - lo..];
    assert s == a + t;
    assert t == m + c;
    assert m == s[lo..hi];
    FilterAppend(keep, a, t);
    FilterAppend(keep, m, c);
    FilterNone(keep, a);
    forall k | 0 <= k < |c| ensures !keep(c[k]) {
      assert c[k] == t[hi - lo + k] == s[hi + k];
    }
    FilterNone(keep, c);
  }

  /** Filtering by a stronger predicate after a weaker one is filtering by the
      stronger one alone. */
  lemma {:induction false} FilterNarrow<T(!new)>(p: T -> bool, q: T -> bool, s: seq<T>)
    requires forall x :: p(x) ==> q(x)
    ensures Filter(p, Filter(q, s)) == Filter(p, s)
    decreases |s|
  {
    if |s| > 0 {
      FilterNarrow(p, q, s[1..]);
      if q(s[0]) {
        assert Filter(q, s) == [s[0]] + Filter(q, s[1..]);
        assert ([s[0]] + Filter(q, s[1..]))[1..] == Filter(q, s[1..]);
      }
    }
  }

  /** Two sequences that agree on what a weaker predicate keeps agree on what a
      stronger one keeps. */
  lemma {:induction false} FilterTransfer<T(!new)>(p: T -> bool, q: T -> bool, a: seq<T>, b: seq<T>)
    requires forall x :: p(x) ==> q(x)
    requires Filter(q, a) == Filter(q, b)
    ensures Filter(p, a) == Filter(p, b)
  {
    FilterNarrow(p, q, a);
    FilterNarrow(p, q, b);
  }

  lemma {:induction false} FilterIdempotent<T(!new)>(keep: T -> bool, s: seq<T>)
    ensures Filter(keep, Filter(keep, s)) == Filter(keep, s)
  {
    FilterIdentity(keep, Filter(keep, s));
  }

  /** Python's `' '.join(parts)`. */
  function Join(parts: seq<string>): (r: string)
    ensures |parts| == 0 ==> r == ""
    ensures |parts| == 1 ==> r == parts[0]
    decreases |parts|
  {
    if |parts| == 0 then ""
    else if |parts| == 1 then parts[0]
    else parts[0] + " " + Join(parts[1..])
  }

  /** The position of the first occurrence of `x` in `s`. */
  function IndexOf<T(==)>(s: seq<T>, x: T): (k: nat)
    requires x in s
    ensures k < |s| && s[k] == x && x !in s[..k]
  {
    if s[0] == x then 0
    else
      assert x in s[1..] by { assert s == [s[0]] + s[1..]; }
      var k := 1 + IndexOf(s[1..], x);
      assert s[..k] == [s[0]] + s[1..][..k - 1];
      k
  }

  /** Python's `s.split(' ')`: the pieces between single spaces, empty pieces
      included, so that the result is never empty. */
  function Split(s: string): (parts: seq<string>)
    ensures |parts| >= 1
    ensures forall i :: 0 <= i < |parts| ==> ' ' !in parts[i]
    decreases |s|
  {
    if ' ' !in s then [s]
    else
      var k := IndexOf(s, ' ');
      [s[..k]] + Split(s[k + 1..])
  }

  /** Joining what was split gives back the text. */
  lemma {:induction false} JoinSplit(s: string)
    ensures Join(Split(s)) == s
    decreases |s|
  {
    if ' ' in s {
      var k := IndexOf(s, ' ');
      var rest := Split(s[k + 1..]);
      var parts := [s[..k]] + rest;
      assert Split(s) == parts;
      assert parts[0] == s[..k] && parts[1..] == rest;
      assert Join(parts) == s[..k] + " " + Join(rest);
      JoinSplit(s[k + 1..]);
      assert s == s[..k] + " " + s[k + 1..];
    }
  }

  /** Splitting what was joined gives back the pieces, provided there is at least
      one and none holds a space. */
  lemma {:induction false} SplitJoin(parts: seq<string>)
    requires |parts| >= 1
    requires forall i :: 0 <= i < |parts| ==> ' ' !in parts[i]
    ensures Split(Join(parts)) == parts
    decreases |parts|
  {
    if |parts| > 1 {
      var p := parts[0];
      var s := Join(parts);
      var tail := Join(parts[1..]);
      assert s == p + " " + tail;
      assert s[|p|] == ' ';
      var k := IndexOf(s, ' ');
      assert k == |p|;
      assert s[..k] == p;
      assert s[k + 1..] == tail;
      SplitJoin(parts[1..]);
    }
  }
}

=== FILE: stopwords.dfy ===
/** The stopword list built in `TextPreprocessor.__init__` and the filter of
    `remove_stopwords` (preprocess/normalize.py lines 23-29 and 53-61). */
module Stopwords {
  import opened Wrappers
  import opened Seqs
  import opened PyStrings
  import opened Library

  /** The domain-specific tokens appended to the base list, in source order. */
  const CustomStopwords: seq<string> := ["xx", "xxxx", "xxxa", "xxxxxxxx", "&#9;", "xxxxxxx", "yyyyyyyy"]

  /** `list.remove(word)` raises `ValueError` when the word is absent. */
  datatype Error = ValueError(missing: string)

  /** `list.remove(x)` on a list that holds `x`: the first occurrence goes, the
      elements before and after it stay in order. */
  function RemoveFirst(s: seq<string>, x: string): (r: seq<string>)
    requires x in s
    ensures |r| == |s| - 1
    ensures r[..IndexOf(s, x)] == s[..IndexOf(s, x)]
    ensures r[IndexOf(s, x)..] == s[IndexOf(s, x) + 1..]
    ensures multiset(r) == multiset(s) - multiset{x}
  {
    var k := IndexOf(s, x);
    assert s == s[..k] + [x] + s[k + 1..];
    s[..k] + s[k + 1..]
  }

  /** Any other word is in the list after the removal exactly when it was before. */
  lemma {:induction false} RemoveFirstKeepsOthers(s: seq<string>, x: string, w: string)
    requires x in s && w != x
    ensures w in RemoveFirst(s, x) <==> w in s
  {
    var r := RemoveFirst(s, x);
    assert multiset(r)[w] == multiset(s)[w];
    assert w in r <==> w in multiset(r);
    assert w in s <==> w in multiset(s);
  }

  /** The construction itself. */
  function Build(base: seq<string>): Result<seq<string>, Error> {
    if "no" !in base then Failure(ValueError("no"))
    else
      var withoutNo := RemoveFirst(base, "no");
      if "not" !in withoutNo then Failure(ValueError("not"))
      else Success(RemoveFirst(withoutNo, "not") + CustomStopwords)
  }

  lemma {:induction false} BuildOutcome(base: seq<string>)
    ensures Build(base).Success? <==> "no" in base && "not" in base
    ensures "no" !in base ==> Build(base) == Failure(ValueError("no"))
    ensures "no" in base && "not" !in base ==> Build(base) == Failure(ValueError("not"))
  {
    if "no" in base {
      RemoveFirstKeepsOthers(base, "no", "not");
    }
  }

  /** Neither negation is one of the custom tokens. */
  lemma {:induction false} NegationsNotCustom()
    ensures "no" !in CustomStopwords && "not" !in CustomStopwords
  {
    forall k | 0 <= k < |CustomStopwords| ensures CustomStopwords[k] != "no" && CustomStopwords[k] != "not" {
      assert CustomStopwords[k][0] != 'n';
    }
  }

  lemma {:induction false} BuildContents(base: seq<string>)
    requires "no" in base && "not" in base
    ensures Build(base).Success?
    ensures |Build(base).value| == |base| - 2 + |CustomStopwords|
    ensures multiset(Build(base).value[..|base| - 2]) == multiset(base) - multiset{"no", "not"}
    ensures Build(base).value[|base| - 2..] == CustomStopwords
  {
    RemoveFirstKeepsOthers(base, "no", "not");
    var withoutNo := RemoveFirst(base, "no");
    var kept := RemoveFirst(withoutNo, "not");
    assert Build(base).value == kept + CustomStopwords;
    assert Build(base).value[..|base| - 2] == kept;
    assert multiset{"no", "not"} == multiset{"no"} + multiset{"not"};
  }

  lemma {:induction false} BuildKeepsOthers(base: seq<string>, w: string)
    requires "no" in base && "not" in base
    requires w in base && w != "no" && w != "not"
    ensures Build(base).Success? && w in Build(base).value
  {
    RemoveFirstKeepsOthers(base, "no", "not");
    RemoveFirstKeepsOthers(base, "no", w);
    RemoveFirstKeepsOthers(RemoveFirst(base, "no"), "not", w);
  }

  /** Lines 23-29: the base list minus the first "no", minus the first "not", with
      the custom tokens appended. Either removal fails when its word is missing,
      the "no" one first. What precedes the custom tokens is the base list with
      one "no" and one "not" fewer, so every other base word stays. */
  function BuildStopwordList(base: seq<string>): (r: Result<seq<string>, Error>)
    ensures r.Success? <==> "no" in base && "not" in base
    ensures "no" !in base ==> r == Failure(ValueError("no"))
    ensures "no" in base && "not" !in base ==> r == Failure(ValueError("not"))
    ensures r.Success? ==> |r.value| == |base| - 2 + |CustomStopwords|
    ensures r.Success? ==> multiset(r.value[..|base| - 2]) == multiset(base) - multiset{"no", "not"}
    ensures r.Success? ==> r.value[|base| - 2..] == CustomStopwords
    ensures r.Success? ==> forall w :: w in base && w != "no" && w != "not" ==> w in r.value
  {
    BuildOutcome(base);
    if "no" in base && "not" in base then
      BuildContents(base);
      assert forall w :: w in base && w != "no" && w != "not" ==> w in Build(base).value by {
        forall w | w in base && w != "no" && w != "not" ensures w in Build(base).value {
          BuildKeepsOthers(base, w);
        }
      }
      Build(base)
    else
      Build(base)
  }

  /** After construction "no" is absent exactly when the base list held it once,
      and likewise "not": with each negation occurring once, neither is a
      stopword; a second copy would survive the single removal. */
  lemma {:induction false} NegationsExcluded(base: seq<string>)
    requires "no" in base && "not" in base
    ensures "no" !in BuildStopwordList(base).value <==> multiset(base)["no"] == 1
    ensures "not" !in BuildStopwordList(base).value <==> multiset(base)["not"] == 1
  {
    var v := BuildStopwordList(base).value;
    var n := |base| - 2;
    var kept := v[..n];
    NegationsNotCustom();
    assert v == kept + CustomStopwords;
    assert "no" in v <==> "no" in kept;
    assert "not" in v <==> "not" in kept;
    assert "no" in multiset(base) && "not" in multiset(base);
    assert multiset(kept)["no"] == multiset(base)["no"] - 1;
    assert multiset(kept)["not"] == multiset(base)["not"] - 1;
  }

  /** Every custom token is a stopword once the list is built. */
  lemma {:induction false} CustomStopwordsIncluded(base: seq<string>)
    requires "no" in base && "not" in base
    ensures forall w :: w in CustomStopwords ==> w in BuildStopwordList(base).value
  {
    var v := BuildStopwordList(base).value;
    assert v == v[..|base| - 2] + CustomStopwords;
  }

  // ---------------------------------------------------------------------------
  // Lines 53-61: `remove_stopwords`

  /** Line 55: every token with its surrounding whitespace stripped. Each result is
      the piece of its token that starts after the leading whitespace, has no
      whitespace at either end, and holds all the token's other characters. */
  function StripAll(tokens: seq<string>): (r: seq<string>)
    ensures |r| == |tokens|
    ensures forall i :: 0 <= i < |r| ==> Trimmed(r[i])
    ensures forall i :: 0 <= i < |r| ==>
              && LeadingWhitespace(tokens[i]) + |r[i]| <= |tokens[i]|
              && r[i] == tokens[i][LeadingWhitespace(tokens[i])..LeadingWhitespace(tokens[i]) + |r[i]|]
    ensures forall i :: 0 <= i < |r| ==> Filter(NotWhitespace, r[i]) == Filter(NotWhitespace, tokens[i])
  {
    seq(|tokens|, i requires 0 <= i < |tokens| => Strip(tokens[i]))
  }

  /** What the list is searched for: the token itself when the text is already
      lower case (line 57), `token.lower()` otherwise (line 59). */
  function LookupKey(tk: Toolkit, token: string, isLowerCase: bool): string {
    if isLowerCase then token else Lower(tk.nonAsciiLower, token)
  }

  function NotStopword(tk: Toolkit, stopwords: seq<string>, isLowerCase: bool): string -> bool {
    t => LookupKey(tk, t, isLowerCase) !in stopwords
  }

  /** The stripped tokens of `text`. */
  function StrippedTokens(tk: Toolkit, text: string): seq<string> {
    StripAll(tk.tokenize(text))
  }

  /** Lines 54-59: the stripped tokens whose lookup key is not in the list, in
      their original order, each as often as it occurs. */
  function SurvivingTokens(tk: Toolkit, stopwords: seq<string>, text: string, isLowerCase: bool): (ts: seq<string>)
    ensures forall i :: 0 <= i < |ts| ==>
              LookupKey(tk, ts[i], isLowerCase) !in stopwords && Trimmed(ts[i]) && ts[i] in StrippedTokens(tk, text)
    ensures IsSubsequence(ts, StrippedTokens(tk, text))
    ensures forall t {:trigger multiset(ts)[t]} :: LookupKey(tk, t, isLowerCase) !in stopwords ==>
              multiset(ts)[t] == multiset(StrippedTokens(tk, text))[t]
    ensures forall t {:trigger t in ts} :: LookupKey(tk, t, isLowerCase) in stopwords ==> t !in ts
  {
    var keep := NotStopword(tk, stopwords, isLowerCase);
    var tokens := StrippedTokens(tk, text);
    var ts := Filter(keep, tokens);
    FilterSubsequence(keep, tokens);
    FilterCounts(keep, tokens);
    assert forall i :: 0 <= i < |ts| ==> keep(ts[i]) && ts[i] in tokens;
    assert forall t :: LookupKey(tk, t, isLowerCase) !in stopwords <==> keep(t);
    ts
  }

  /** `remove_stopwords`: the surviving tokens joined by single spaces. No token
      gives the empty string, and when the survivors hold no space the text splits
      back into exactly the survivors. */
  function RemoveStopwords(tk: Toolkit, stopwords: seq<string>, text: string, isLowerCase: bool): (r: string)
    ensures |SurvivingTokens(tk, stopwords, text, isLowerCase)| == 0 ==> r == ""
    ensures |SurvivingTokens(tk, stopwords, text, isLowerCase)| >= 1
            && (forall i :: 0 <= i < |SurvivingTokens(tk, stopwords, text, isLowerCase)| ==>
                  ' ' !in SurvivingTokens(tk, stopwords, text, isLowerCase)[i])
            ==> Split(r) == SurvivingTokens(tk, stopwords, text, isLowerCase)
  {
    var ts := SurvivingTokens(tk, stopwords, text, isLowerCase);
    var spaceFree := |ts| >= 1 && forall i :: 0 <= i < |ts| ==> ' ' !in ts[i];
    assert spaceFree ==> Split(Join(ts)) == ts by {
      if spaceFree {
        SplitJoin(ts);
      }
    }
    Join(ts)
  }

  /** A text of stopwords only, or one the tokenizer finds no token in, leaves
      the empty string. */
  lemma {:induction false} OnlyStopwordsLeaveNothing(tk: Toolkit, stopwords: seq<string>, text: string, isLowerCase: bool)
    requires forall t :: t in StrippedTokens(tk, text) ==> LookupKey(tk, t, isLowerCase) in stopwords
    ensures RemoveStopwords(tk, stopwords, text, isLowerCase) == ""
  {
  }
}

=== FILE: wrappers.dfy ===
/** The failure-carrying result of an operation that can raise. */
module Wrappers {

  datatype Result<+R, +E> = Success(value: R) | Failure(error: E)
}
